=== FILE: README.md ===
# Chat client protocol engine and arithmetic request handler, in Dafny

This project models two small, sequential, string-driven parts of a Java
networking exercise repository. It proves properties of both.

1. **The chat client (`TCPClient`).** The model is an immutable `Client` record with these fields:
   - the `connection` field, as `Absent | Open | Closed`;
   - `lastError`;
   - the registered listeners;
   - every line written to the server;
   - every listener callback made.

   The operations are pure functions over this record:
   - the outbound requests with their validation: `sendPublicMessage`, `sendPrivateMessage`, `tryLogin`, `refreshUserList`, `askSupportedCommands`, `sendCommand`;
   - `isConnectionActive` and `getLastError`;
   - the listener registry (`addListener`, `removeListener`) and the `on*` fan-out;
   - the once-only `disconnect`;
   - the listen loop, which decodes each incoming line with the `switch` of `parseIncomingCommands` and notifies every listener.
2. **The arithmetic request handler (`ClientHandler`).** Each request line is trimmed. `"game over"` closes the connection. `"a+b"` is answered with the 32-bit wrapped sum. A number that does not parse is answered with `"error"`. A missing operand is an uncaught index fault, which ends the worker thread. The `run` loop is modelled over a sequence of read results.

Modules:
- `JavaStrings`: `String.split` with limit 2 and with the default limit 0, `String.trim`, and the join that `split` inverts.
- `JavaInts`: `Integer.parseInt`, `Integer.toString`, and wrap-around `int` addition.
- `ChatProtocol`: the events, the decoder and the command encoder. Each direction is proved against a reference grammar of the wire format: one keyword, then its space-separated fields. `ParseCommand` reads a command line with it and `ResponseLine` spells an event as a response line. The grammar is an assumption of this model, written from the shape of the lines the client sends and decodes; the chat server's code is not part of this model.
- `Registry`: the duplicate-free listener list and the fan-out.
- `ChatClient`: the client state and its operations.
- `ArithmeticServer`: the request handler and its loop.

The model follows the code as written, including these behaviours:
- `loginok` is reported as `LoginResult(true, " ")`, with a single space, not an empty message.
- An unknown keyword is reported as `CommandError("The response from the server could not be recognized.")`.
- A line whose keyword needs more fields than it has, for example `users`, `msg alice` or `loginerr` alone, throws `ArrayIndexOutOfBoundsException`. Nothing catches it, so the listening thread ends. It is not reported as a command error. The model decodes such a line to `Malformed`, and `Listen` stops there.
- `users ` (with a trailing space) yields the one-name list `[""]`, as Java's `split` returns the whole empty string when there is no separator in it.
- `isConnectionActive` only tests that the field is non-null. A closed socket therefore still counts as active, and `sendCommand` still writes to it and returns true.
- A failed `connect` never assigns the field, so the field keeps its previous value. It does not become absent.
- `disconnect` on a client that never connected dereferences null. `Disconnect` therefore requires a socket.
- In `ClientHandler`, `parseInt(parts[0])` runs before `parts[1]` is indexed. So `"abc"`, `""` and `"+5"` are answered with `"error"`, while `"5"`, `"5+"` and `"+"` crash the worker. A `readLine` that returns null makes `trim` throw `NullPointerException`, which also crashes it. A read that throws `IOException` is answered with `"error"`.

## Model

| member | source | states |
|---|---|---|
| JavaStrings.SplitFirst | ChatClient/src/main/java/no/ntnu/TCPClient.java:237 | `split(" ", 2)` gives the whole line when it has no space. Otherwise it gives the separator-free text before the first space and everything after it, which re-join to the line. |
| JavaStrings.SplitFirstJoined | ChatClient/src/main/java/no/ntnu/TCPClient.java:253 | A separator-free head, the separator and any tail split back into exactly that head and tail. |
| JavaStrings.Fields | ChatClient/src/main/java/no/ntnu/TCPClient.java:248 | The full list of fields is separator-free and joins back to the string. |
| JavaStrings.FieldsOfJoin | ChatClient/src/main/java/no/ntnu/TCPClient.java:248 | That decomposition is unique: splitting any join of separator-free fields gives those fields back. |
| JavaStrings.Split | Warmup/src/main/java/no/ntnu/datakomm/ClientHandler.java:58 | `split` with limit 0 never yields a field holding the separator. A string without the separator comes back whole. Otherwise the last field is never empty. |
| JavaStrings.SplitOfJoin | ChatClient/src/main/java/no/ntnu/TCPClient.java:248 | Separator-free names whose last one is non-empty survive a join followed by `split(" ")`. |
| JavaStrings.SplitOfJoinKeeps | Warmup/src/main/java/no/ntnu/datakomm/ClientHandler.java:58 | Dropping trailing empty fields keeps every field up to any non-empty one. |
| JavaStrings.SplitOfEmptyFields | Warmup/src/main/java/no/ntnu/datakomm/ClientHandler.java:58 | Two or more fields that are all empty, such as `"+"`, split into no parts at all. |
| JavaStrings.Trim | Warmup/src/main/java/no/ntnu/datakomm/ClientHandler.java:35 | `trim()` leaves no character at or below U+0020 at either end. |
| JavaStrings.TrimDecomposes | Warmup/src/main/java/no/ntnu/datakomm/ClientHandler.java:35 | Every line is its trimmed core padded on both sides with such characters. |
| JavaStrings.TrimPadded | Warmup/src/main/java/no/ntnu/datakomm/ClientHandler.java:35 | Trimming removes exactly the blank padding around a core with non-blank ends. |
| JavaStrings.TrimIdempotent | Warmup/src/main/java/no/ntnu/datakomm/ClientHandler.java:35 | Trimming twice is trimming once. |
| JavaInts.WrapAdd | Warmup/src/main/java/no/ntnu/datakomm/ClientHandler.java:76 | `int` addition gives an `int` congruent to the true sum modulo 2^32. It equals the true sum when that is in range. |
| JavaInts.NatToDigits | Warmup/src/main/java/no/ntnu/datakomm/ClientHandler.java:77 | The digits printed for a natural number denote that number and have no leading zero. |
| JavaInts.ParseInt | Warmup/src/main/java/no/ntnu/datakomm/ClientHandler.java:60-61 | `parseInt` succeeds only on one optional `+` or `-` followed by at least one digit and nothing else, and only with an `int`. Digits alone or after `+` parse to their value when it is at most 2147483647 and fail above it. Digits after `-` parse to the negated value down to -2147483648 and fail below it. |
| JavaInts.ToDecimal | Warmup/src/main/java/no/ntnu/datakomm/ClientHandler.java:77 | `toString` prints a non-empty string with no `+` or space: digits, preceded by `-` for negatives. Zero is the single digit `0`, and no other value has a leading zero. |
| JavaInts.ToDecimalNotError | Warmup/src/main/java/no/ntnu/datakomm/ClientHandler.java:58-77 | The decimal text of a sum is never the word `"error"`, so the two kinds of reply cannot be confused. |
| JavaInts.ParseToDecimal | Warmup/src/main/java/no/ntnu/datakomm/ClientHandler.java:60-77 | Every `int` printed by `toString` parses back to itself. |
| ArithmeticServer.ParseRequest | Warmup/src/main/java/no/ntnu/datakomm/ClientHandler.java:48-68 | A request closes the connection if and only if it is `"game over"`. Every reply is `"error"` or the printed wrapped sum of two `int`s. |
| ArithmeticServer.HandleRead | Warmup/src/main/java/no/ntnu/datakomm/ClientHandler.java:14-42 | A failed read is answered with `"error"`. End of stream crashes the worker. A line closes the connection if and only if it trims to `"game over"`. |
| ArithmeticServer.Serve | Warmup/src/main/java/no/ntnu/datakomm/ClientHandler.java:15-23 | The loop writes at most one reply per read, and the k-th reply is exactly what the k-th read is answered with. While it stays open it has replied to every read. Once it has ended, it stopped at the first read that got no reply: closed on `"game over"`, crashed otherwise. |
| ArithmeticServer.RunReplies | Warmup/src/main/java/no/ntnu/datakomm/ClientHandler.java:15-23 | Over any sequence of outcomes, each reply written is the text of the matching outcome, and an ended loop stopped at its first close or crash, ending as closed exactly on a close. |
| ArithmeticServer.ServeContinues | Warmup/src/main/java/no/ntnu/datakomm/ClientHandler.java:15-23 | A session still open after some reads carries on with the next reads as a fresh one would. |
| ArithmeticServer.ServeStops | Warmup/src/main/java/no/ntnu/datakomm/ClientHandler.java:15-23 | After a close or a crash, nothing further is read. |
| ArithmeticServer.FailedReadContinues | Warmup/src/main/java/no/ntnu/datakomm/ClientHandler.java:17-22 | A null request is answered with `"error"` and the loop goes on. |
| ArithmeticServer.PaddedRequest | Warmup/src/main/java/no/ntnu/datakomm/ClientHandler.java:35 | Blanks around a request are removed before it is parsed. |
| ArithmeticServer.GameOverCloses | Warmup/src/main/java/no/ntnu/datakomm/ClientHandler.java:49-56 | `"game over"` with any blank padding closes the connection with no reply, ending the session. |
| ArithmeticServer.SumReply | Warmup/src/main/java/no/ntnu/datakomm/ClientHandler.java:58-62 | Two `+`-free operands that both parse, such as `"05+3"` or `"-0+7"`, are answered with the decimal text of the wrapped sum of their values, never with `"error"`. |
| ArithmeticServer.ExtraOperandsIgnored | Warmup/src/main/java/no/ntnu/datakomm/ClientHandler.java:58-61 | After two operands that parse, whatever follows a second `+` is ignored. |
| ArithmeticServer.BadFirstOperand | Warmup/src/main/java/no/ntnu/datakomm/ClientHandler.java:59-66 | A non-empty first operand that does not parse is answered with `"error"`, whatever follows it. |
| ArithmeticServer.OperandFails | Warmup/src/main/java/no/ntnu/datakomm/ClientHandler.java:58-65 | Whenever the first or the second `+`-separated part does not parse and some part after the first is non-empty, the request is answered with `"error"`, whatever the other parts hold. |
| ArithmeticServer.BadSecondOperand | Warmup/src/main/java/no/ntnu/datakomm/ClientHandler.java:58-66 | A first operand that parses followed by a non-empty second one that does not, such as `"5+abc"`, `"5+2147483648"` or `"5+abc+1"`, is answered with `"error"`, whether or not more operands follow. |
| ArithmeticServer.EmptySecondOperand | Warmup/src/main/java/no/ntnu/datakomm/ClientHandler.java:58-66 | A first operand that parses followed by two `+` signs in a row and then anything that is not only `+` signs, such as `"5++3"`, `"5++3+4"` or `"5+++3"`, is answered with `"error"`, because the empty second part does not parse. |
| ArithmeticServer.EmptyFirstOperand | Warmup/src/main/java/no/ntnu/datakomm/ClientHandler.java:58-66 | A request that starts with `+` and then holds anything that is not only `+` signs, such as `"+5"`, `"+5+6"` or `"++5"`, is answered with `"error"`, because the empty first part does not parse. |
| ArithmeticServer.MissingSecondOperand | Warmup/src/main/java/no/ntnu/datakomm/ClientHandler.java:58-66 | A `+`-free text that `parseInt` accepts, followed by nothing or only by `+` signs, crashes the worker instead of replying `"error"`. |
| ArithmeticServer.OnlyPlusesCrash | Warmup/src/main/java/no/ntnu/datakomm/ClientHandler.java:58-60 | A request of only `+` signs splits into nothing, and indexing the first part crashes the worker. |
| ArithmeticServer.ThreeOperandsExample | Warmup/src/main/java/no/ntnu/datakomm/ClientHandler.java:58-61 | `"1+2+3"` is answered `"3"`. |
| ArithmeticServer.OneOperandExamples | Warmup/src/main/java/no/ntnu/datakomm/ClientHandler.java:58-66 | `"5+"` and `"5"` crash the worker. `"abc"` and the empty request `""` are answered `"error"`. |
| ArithmeticServer.BadSecondOperandExample | Warmup/src/main/java/no/ntnu/datakomm/ClientHandler.java:58-66 | `"5+abc"` is answered `"error"`. |
| ArithmeticServer.BadMiddleOperandExample | Warmup/src/main/java/no/ntnu/datakomm/ClientHandler.java:58-66 | `"5+abc+1"` is answered `"error"`. |
| ArithmeticServer.EmptySecondOperandExample | Warmup/src/main/java/no/ntnu/datakomm/ClientHandler.java:58-66 | `"5++3"` is answered `"error"`. |
| ArithmeticServer.EmptyOperandsExample | Warmup/src/main/java/no/ntnu/datakomm/ClientHandler.java:58-66 | `"5+++3"` is answered `"error"`. |
| ArithmeticServer.EmptyFirstOperandExample | Warmup/src/main/java/no/ntnu/datakomm/ClientHandler.java:58-66 | `"+5"` is answered `"error"`. |
| ArithmeticServer.EmptyOperandsFirstExample | Warmup/src/main/java/no/ntnu/datakomm/ClientHandler.java:58-66 | `"++5"` is answered `"error"`. |
| ArithmeticServer.OverflowWraps | Warmup/src/main/java/no/ntnu/datakomm/ClientHandler.java:75-78 | The largest `int` plus one is answered with the smallest `int`. |
| ChatProtocol.KeywordOf | ChatClient/src/main/java/no/ntnu/TCPClient.java:238 | A recognised keyword is exactly that keyword's spelling. A word is unrecognised if and only if no keyword of the protocol is spelled that way. |
| ChatProtocol.KeywordOfSpelling | ChatClient/src/main/java/no/ntnu/TCPClient.java:238-276 | No two keywords share a spelling, so every keyword is recognised from its own spelling. |
| ChatProtocol.Decode | ChatClient/src/main/java/no/ntnu/TCPClient.java:237-277 | Decoding never yields a disconnect event, and a successful login always carries the message `" "`. |
| ChatProtocol.DecodeFields | ChatClient/src/main/java/no/ntnu/TCPClient.java:238-277 | Only keywords that read a rest can fault. Every keyword outside the protocol yields the unrecognized-response error. |
| ChatProtocol.DecodeMessage | ChatClient/src/main/java/no/ntnu/TCPClient.java:252-260 | The second split faults if and only if the rest has no space. Otherwise the sender has no space, and sender, space and text rebuild the rest. Only `privmsg` is private. |
| ChatProtocol.DecodeKeywordLine | ChatClient/src/main/java/no/ntnu/TCPClient.java:237-238 | The switch sees the keyword before the first space and the whole rest after it. |
| ChatProtocol.DecodeResponseLine | ChatClient/src/main/java/no/ntnu/TCPClient.java:237-277 | Every event whose reference response line is unambiguous (a space-free sender, name lists that survive splitting) decodes back to itself. |
| ChatProtocol.DecodeReasonLine | ChatClient/src/main/java/no/ntnu/TCPClient.java:243-268 | `loginerr R`, `msgerr R` and `cmderror R` pass the whole remainder R through verbatim, spaces included. |
| ChatProtocol.DecodeListLine | ChatClient/src/main/java/no/ntnu/TCPClient.java:247-273 | `users N1 N2 …` and `supported C1 C2 …` yield the names in order. |
| ChatProtocol.DecodeListAnyRest | ChatClient/src/main/java/no/ntnu/TCPClient.java:247-273 | Any rest after `users ` or `supported ` is split on every space. |
| ChatProtocol.DecodeMessageLine | ChatClient/src/main/java/no/ntnu/TCPClient.java:252-260 | `msg S T` and `privmsg S T` take the sender up to the next space and the whole rest as text. Only `privmsg` is private. |
| ChatProtocol.DecodeLoginOk | ChatClient/src/main/java/no/ntnu/TCPClient.java:239-241 | `loginok`, with or without anything after it, is a successful login with message `" "`. |
| ChatProtocol.DecodeUnknownKeyword | ChatClient/src/main/java/no/ntnu/TCPClient.java:275-276 | Any other keyword, with or without a rest, is reported as an unrecognized response. |
| ChatProtocol.MalformedBare | ChatClient/src/main/java/no/ntnu/TCPClient.java:237-273 | A line without a space faults if and only if its keyword reads a rest. |
| ChatProtocol.MalformedWithRest | ChatClient/src/main/java/no/ntnu/TCPClient.java:252-260 | A line with a space faults if and only if it is a `msg`/`privmsg` line with a sender but no text. |
| ChatProtocol.UsersAloneMalformed | ChatClient/src/main/java/no/ntnu/TCPClient.java:247-250 | `users` with no list faults. |
| ChatProtocol.MessageWithoutTextMalformed | ChatClient/src/main/java/no/ntnu/TCPClient.java:252-255 | `msg alice` (a sender with no text) faults. |
| ChatProtocol.Encode | ChatClient/src/main/java/no/ntnu/TCPClient.java:102-172 | Every request is encoded as a non-empty line. |
| ChatProtocol.ParseEncode | ChatClient/src/main/java/no/ntnu/TCPClient.java:102-172 | Every request with a space-free recipient is read back by the reference grammar `ParseCommand` as exactly that request. |
| ChatProtocol.ParsePrivateMessage | ChatClient/src/main/java/no/ntnu/TCPClient.java:157 | `privmsg R M` with a space-free recipient R is read back by `ParseCommand` with the whole of M as the message. |
| ChatProtocol.EncodeParse | ChatClient/src/main/java/no/ntnu/TCPClient.java:102-172 | Every line `ParseCommand` accepts is exactly the encoding of the request it reads. |
| ChatProtocol.EncodeAlwaysParses | ChatClient/src/main/java/no/ntnu/TCPClient.java:148-163 | Even with spaces in the recipient, the encoded line is one `ParseCommand` accepts. |
| Registry.Add | ChatClient/src/main/java/no/ntnu/TCPClient.java:286-290 | A registered listener leaves the list unchanged. A new one is appended at the end. |
| Registry.AddKeepsRegistry | ChatClient/src/main/java/no/ntnu/TCPClient.java:286-290 | Registration keeps the list duplicate-free, keeps every listener, and adds only the new one. |
| Registry.AddIdempotent | ChatClient/src/main/java/no/ntnu/TCPClient.java:286-290 | Registering twice is registering once. |
| Registry.Remove | ChatClient/src/main/java/no/ntnu/TCPClient.java:297-299 | Removal cuts out the first occurrence and keeps the others in order. An absent listener leaves the list unchanged. |
| Registry.RemoveMembers | ChatClient/src/main/java/no/ntnu/TCPClient.java:297-299 | From a duplicate-free list, removal takes out the listener and no other. |
| Registry.RemoveKeepsOthers | ChatClient/src/main/java/no/ntnu/TCPClient.java:297-299 | Removal keeps the list duplicate-free, and the result holds exactly the other listeners. |
| Registry.RemoveAdd | ChatClient/src/main/java/no/ntnu/TCPClient.java:286-299 | Registering a new listener and then removing it restores the list. |
| Registry.FanOut | ChatClient/src/main/java/no/ntnu/TCPClient.java:314-387 | A notifier makes one call per listener, in list order, each with the same event. |
| Registry.FanOutExactlyOnce | ChatClient/src/main/java/no/ntnu/TCPClient.java:314-387 | Over a duplicate-free list, each registered listener gets the event exactly once and an unregistered one never. |
| ChatClient.Connect | ChatClient/src/main/java/no/ntnu/TCPClient.java:25-39 | A successful connect opens the socket and returns true. A failed one returns false and changes nothing. |
| ChatClient.IsConnectionActive | ChatClient/src/main/java/no/ntnu/TCPClient.java:66-75 | Active if and only if the socket field is set, including after the socket was closed. |
| ChatClient.SendCommand | ChatClient/src/main/java/no/ntnu/TCPClient.java:83-94 | Writes the line if and only if the connection is active and the line is non-empty, and returns exactly that condition. Nothing else changes. |
| ChatClient.SendPublicMessage | ChatClient/src/main/java/no/ntnu/TCPClient.java:102-116 | Returns true if and only if the message is non-empty, even when nothing could be written. On an active connection it writes `"msg " + message`. An empty message records "Message was empty string." and writes nothing. The client stays valid. |
| ChatClient.SendPrivateMessage | ChatClient/src/main/java/no/ntnu/TCPClient.java:148-163 | Returns true if and only if recipient and message are non-empty. It then writes `"privmsg " + recipient + " " + message` when the connection is active. Otherwise it records "Recipient or message not specified." and writes nothing. |
| ChatClient.TryLogin | ChatClient/src/main/java/no/ntnu/TCPClient.java:123-129 | Writes `"login " + username` only for a non-empty username on an active connection. Otherwise nothing changes, and no error is recorded. |
| ChatClient.RefreshUserList | ChatClient/src/main/java/no/ntnu/TCPClient.java:135-139 | Writes `"users"` when active. Nothing else changes. |
| ChatClient.AskSupportedCommands | ChatClient/src/main/java/no/ntnu/TCPClient.java:169-172 | Writes `"help"` when active. Nothing else changes. |
| ChatClient.GetLastError | ChatClient/src/main/java/no/ntnu/TCPClient.java:207-213 | Returns the recorded error, or `""` while none has been recorded. |
| ChatClient.AddListener | ChatClient/src/main/java/no/ntnu/TCPClient.java:286-290 | Registers through the registry and keeps the client valid. Nothing else changes. |
| ChatClient.RemoveListener | ChatClient/src/main/java/no/ntnu/TCPClient.java:297-299 | Unregisters through the registry and keeps the client valid. Nothing else changes. |
| ChatClient.Notify | ChatClient/src/main/java/no/ntnu/TCPClient.java:314-387 | Appends exactly one callback per registered listener, in list order, after all earlier callbacks. Nothing else changes. |
| ChatClient.Disconnect | ChatClient/src/main/java/no/ntnu/TCPClient.java:50-61 | An open socket is closed and every listener is told `Disconnected`. An already closed one is left exactly as it was. |
| ChatClient.DisconnectIdempotent | ChatClient/src/main/java/no/ntnu/TCPClient.java:50-61 | A second disconnect changes nothing. |
| ChatClient.DisconnectNotifiesOnce | ChatClient/src/main/java/no/ntnu/TCPClient.java:50-61 | Disconnecting an open client tells each registered listener exactly once. No number of further calls tells anyone again. |
| ChatClient.DisconnectRepeated | ChatClient/src/main/java/no/ntnu/TCPClient.java:50-61 | Any number of disconnects on a closed client leave it unchanged. |
| ChatClient.Receive | ChatClient/src/main/java/no/ntnu/TCPClient.java:180-279 | An empty line is skipped. The loop ends if and only if a non-empty line is malformed, and then nothing is delivered. Otherwise every listener is notified of the decoded event. |
| ChatClient.Listen | ChatClient/src/main/java/no/ntnu/TCPClient.java:230-279 | The listen loop runs only while the connection is active: without a socket it reads nothing and changes nothing. Otherwise it changes only the callbacks made and keeps the client valid. |
| ChatClient.ListenDelivers | ChatClient/src/main/java/no/ntnu/TCPClient.java:230-279 | On an active connection, events reach listeners in the order the lines arrived. Each event goes to every listener before the next event. The loop survives exactly when no line is malformed. Without a socket nothing is delivered. |
| ChatClient.ListenStops | ChatClient/src/main/java/no/ntnu/TCPClient.java:230-279 | After a malformed line nothing read later is delivered. |
| ChatClient.InitialState | ChatClient/src/main/java/no/ntnu/TCPClient.java:11-16 | A new client is inactive, satisfies the client invariant, and reports `""` as its last error. |
| ChatClient.NothingSentUnconnected | ChatClient/src/main/java/no/ntnu/TCPClient.java:102-116 | Before any connect, a public message is still reported as sent when non-empty, yet nothing is written. |
| ChatClient.RefusalIsReported | ChatClient/src/main/java/no/ntnu/TCPClient.java:102-163 | An empty public message, and a private message whose recipient or text is empty, return false, and `getLastError` then gives the matching non-empty reason. |
| ChatClient.SentLineReadsBack | ChatClient/src/main/java/no/ntnu/TCPClient.java:102-163 | The line written for a public or private message reads back under `ParseCommand` as that message. |

## Left out

- Sockets, streams, `PrintWriter` and `BufferedReader` are I/O and are not modelled. `connect` takes whether the socket was established as a parameter.
- A `connect` where the socket opens but stream setup then throws (partial state) is not modelled, because it is I/O failure detail.
- `startListenThread`, `synchronized`, and any interleaving of the listen thread with other callers are not modelled, because they are concurrency. All operations are modelled one at a time.
- The IOException path of `waitServerResponse` is not modelled. That path disconnects, nulls the fields and makes the loop emit one last unrecognized-response error. It is blocking I/O failure handling.
- A null line at end of stream, which makes `isEmpty` throw, is also not modelled. `Listen` simply ends when its input ends.
- ChatClient.Disconnect: a `close()` that throws IOException, and then notifies no one, is not modelled, because it is I/O failure.
- `ChatListener` and `TextMessage` are not part of this model. Listeners are opaque numeric identities, and a message is kept as its three fields.
- `Warmup/.../SimpleTcpClient.java` is not part of this model. It is a network driver built on random numbers, sleeping and console output.
- `ClientHandler`'s thread subclassing and its stream handling are not modelled, because they are I/O. This includes creating a new `BufferedReader` per read, which may drop buffered input, and the IOException paths of `sendResponseToClient` and `close()`.
- JavaInts.ParseInt: accepts only ASCII digits `0`–`9`. Java's `Character.digit` also accepts other Unicode decimal digits; leaving them out avoids a Unicode digit table.
- Newlines inside outbound messages are not rejected by the client, and line framing is not modelled, so the model treats every written string as one line.

=== FILE: arithmetic_server.dfy ===
/**
 The per-connection worker of the warm-up echo server (ClientHandler): each
 request line is trimmed and answered with the sum of two `+`-separated
 integers, with "error" when they do not parse, or by closing the
 connection on "game over".
 */
module ArithmeticServer {
  import opened Options
  import opened JavaStrings
  import opened JavaInts

  /** What one `readLine` on the client socket produced. */
  datatype ReadResult =
    | Line(text: string)  // a line of text
    | EndOfStream         // `readLine` returned null
    | ReadFailed          // `readLine` threw an IOException

  /** What the worker does with one request. */
  datatype Outcome =
    | Close               // closes the socket without replying
    | Reply(text: string) // writes one response line
    | Crash               // an uncaught runtime exception ends the worker thread

  const GameOver := "game over"
  const ErrorReply := "error"

  /**
   `parseRequest`: "game over" closes; otherwise the request is split on `+`,
   the first part is parsed, then the second part is indexed and parsed.
   A `NumberFormatException` is answered with "error"; a missing part is an
   `ArrayIndexOutOfBoundsException`, which nothing catches.
   */
  function ParseRequest(request: string): (o: Outcome)
    ensures o == Close <==> request == GameOver
    ensures o.Reply? ==> o.text == ErrorReply || exists a, b :: IsInt32(a) && IsInt32(b) && o.text == ToDecimal(WrapAdd(a, b))
  {
    if request == GameOver then Close
    else
      var parts := Split(request, '+');
      if |parts| == 0 then Crash
      else
        match ParseInt(parts[0])
        case None => Reply(ErrorReply)
        case Some(a) =>
          if |parts| < 2 then Crash
          else
            match ParseInt(parts[1])
            case None => Reply(ErrorReply)
            case Some(b) => Reply(ToDecimal(WrapAdd(a, b)))
  }

  /**
   One iteration of `run`: a line read is trimmed and parsed; a failed read
   (null from `readRequestFromClient`) is answered with "error"; a null from
   `readLine` makes `trim` throw a NullPointerException, which nothing catches.
   */
  function HandleRead(read: ReadResult): (o: Outcome)
    ensures read.ReadFailed? ==> o == Reply(ErrorReply)
    ensures read.EndOfStream? ==> o == Crash
    ensures read.Line? ==> (o == Close <==> Trim(read.text) == GameOver)
  {
    match read
    case Line(text) => ParseRequest(Trim(text))
    case EndOfStream => Crash
    case ReadFailed => Reply(ErrorReply)
  }

  /** How a run of the worker ended. */
  datatype Ending = StillOpen | Closed | Crashed

  /** The replies written and how the worker's loop ended, after some input. */
  datatype Session = Session(replies: seq<string>, ending: Ending)

  /**
   The `run` loop: handle input until the socket is closed or the thread
   crashes. The k-th reply is what the k-th read is answered with; the loop
   ends at the first read that is not answered, closing on "game over" and
   crashing otherwise.
   */
  function Serve(input: seq<ReadResult>): (s: Session)
    ensures |s.replies| <= |input|
    ensures forall k :: 0 <= k < |s.replies| ==> HandleRead(input[k]) == Reply(s.replies[k])
    ensures s.ending == StillOpen ==>
              |s.replies| == |input| && forall k :: 0 <= k < |input| ==> HandleRead(input[k]).Reply?
    ensures s.ending != StillOpen ==>
              |s.replies| < |input| && !HandleRead(input[|s.replies|]).Reply? &&
              (s.ending == Closed <==> HandleRead(input[|s.replies|]) == Close)
  {
    RunReplies(Outcomes(input));
    Run(Outcomes(input))
  }

  /** What the worker would do with each read, in order. */
  function Outcomes(input: seq<ReadResult>): (os: seq<Outcome>)
    ensures |os| == |input|
    ensures forall k :: 0 <= k < |input| ==> os[k] == HandleRead(input[k])
  {
    seq(|input|, k requires 0 <= k < |input| => HandleRead(input[k]))
  }

  /** The loop over the outcomes: replies are written until the first close or crash. */
  function Run(os: seq<Outcome>): (s: Session)
    ensures |s.replies| <= |os|
    ensures s.ending == StillOpen ==> |s.replies| == |os| && forall k :: 0 <= k < |os| ==> os[k].Reply?
  {
    if |os| == 0 then Session([], StillOpen)
    else
      assert forall k :: 1 <= k < |os| ==> os[k] == os[1..][k - 1];
      After(os[0], Run(os[1..]))
  }

  /**
   The k-th reply written is the text of the k-th outcome, and a loop that
   ended stopped at the first outcome that is not a reply: a close ends it as
   closed, a crash as crashed.
   */
  lemma {:induction false} RunReplies(os: seq<Outcome>)
    ensures var s := Run(os);
            forall k :: 0 <= k < |s.replies| ==> os[k] == Reply(s.replies[k])
    ensures var s := Run(os);
            s.ending != StillOpen ==>
              |s.replies| < |os| && !os[|s.replies|].Reply? && (s.ending == Closed <==> os[|s.replies|] == Close)
    decreases |os|
  {
    if |os| > 0 {
      RunReplies(os[1..]);
      assert forall k :: 1 <= k < |os| ==> os[k] == os[1..][k - 1];
    }
  }

  /** One turn of the loop: a reply is written and the loop goes on; a close or crash ends it. */
  function After(o: Outcome, later: Session): (s: Session)
    ensures s.ending == StillOpen ==> o.Reply? && later.ending == StillOpen
    ensures o.Reply? ==> s == Session([o.text] + later.replies, later.ending)
    ensures !o.Reply? ==> s.replies == [] && s.ending != StillOpen
  {
    match o
    case Close => Session([], Closed)
    case Crash => Session([], Crashed)
    case Reply(text) => Session([text] + later.replies, later.ending)
  }

  /** Handling two stretches of input is handling the first, then the second. */
  lemma OutcomesAppend(first: seq<ReadResult>, next: seq<ReadResult>)
    ensures Outcomes(first + next) == Outcomes(first) + Outcomes(next)
  {
  }

  /** A session that is still open after `first` continues with `next` as a fresh one would. */
  lemma ServeContinues(first: seq<ReadResult>, next: seq<ReadResult>)
    requires Serve(first).ending == StillOpen
    ensures Serve(first + next) == Session(Serve(first).replies + Serve(next).replies, Serve(next).ending)
  {
    OutcomesAppend(first, next);
    RunContinues(Outcomes(first), Outcomes(next));
  }

  lemma {:induction false} RunContinues(first: seq<Outcome>, next: seq<Outcome>)
    requires Run(first).ending == StillOpen
    ensures Run(first + next) == Session(Run(first).replies + Run(next).replies, Run(next).ending)
    decreases |first|
  {
    if |first| == 0 {
      assert first + next == next;
    } else {
      assert (first + next)[0] == first[0];
      assert (first + next)[1..] == first[1..] + next;
      RunContinues(first[1..], next);
      var a, b := Run(first[1..]).replies, Run(next).replies;
      assert [first[0].text] + (a + b) == ([first[0].text] + a) + b;
    }
  }

  /** Once the socket is closed or the thread has crashed, later input is never read. */
  lemma ServeStops(first: seq<ReadResult>, next: seq<ReadResult>)
    requires Serve(first).ending != StillOpen
    ensures Serve(first + next) == Serve(first)
  {
    OutcomesAppend(first, next);
    RunStops(Outcomes(first), Outcomes(next));
  }

  lemma {:induction false} RunStops(first: seq<Outcome>, next: seq<Outcome>)
    requires Run(first).ending != StillOpen
    ensures Run(first + next) == Run(first)
    decreases |first|
  {
    assert |first| > 0;
    assert (first + next)[0] == first[0];
    assert (first + next)[1..] == first[1..] + next;
    if first[0].Reply? {
      RunStops(first[1..], next);
    }
  }

  /** A failed read is answered with "error" and the loop goes on reading. */
  lemma FailedReadContinues(next: seq<ReadResult>)
    ensures Serve([ReadFailed] + next) == Session([ErrorReply] + Serve(next).replies, Serve(next).ending)
  {
    OutcomesAppend([ReadFailed], next);
    var os := Outcomes([ReadFailed]) + Outcomes(next);
    assert os[0] == Reply(ErrorReply);
    assert os[1..] == Outcomes(next);
  }

  /** Blanks around a request are removed before it is parsed. */
  lemma PaddedRequest(front: string, request: string, back: string)
    requires AllBlank(front) && AllBlank(back)
    requires |request| > 0 ==> !Blank(request[0]) && !Blank(request[|request| - 1])
    ensures HandleRead(Line(front + request + back)) == ParseRequest(request)
  {
    TrimPadded(front, request, back);
  }

  /** A trimmed "game over", with any blank padding, closes the connection with no reply. */
  lemma GameOverCloses(front: string, back: string, next: seq<ReadResult>)
    requires AllBlank(front) && AllBlank(back)
    ensures HandleRead(Line(front + GameOver + back)) == Close
    ensures Serve([Line(front + GameOver + back)] + next) == Session([], Closed)
  {
    TrimPadded(front, GameOver, back);
  }

  /**
   Two `+`-free operands that both parse are answered with the decimal text
   of their wrapped sum, which is never "error". Leading zeros and signs are
   accepted: "05+3" and "-0+7" are sums too.
   */
  lemma SumReply(x: string, y: string, a: int, b: int)
    requires '+' !in x && '+' !in y
    requires ParseInt(x) == Some(a) && ParseInt(y) == Some(b)
    ensures ParseRequest(x + "+" + y) == Reply(ToDecimal(WrapAdd(a, b)))
    ensures ParseRequest(x + "+" + y) != Reply(ErrorReply)
  {
    var request := x + "+" + y;
    assert request == Join([x, y], '+');
    SplitOfJoin([x, y], '+');
    assert request[|x|] == '+';
    PlusNotGameOver(request);
    ToDecimalNotError(WrapAdd(a, b));
  }

  /** Only the first two `+`-separated operands are used: "1+2+3" is answered with "3". */
  lemma ExtraOperandsIgnored(x: string, y: string, a: int, b: int, rest: string)
    requires '+' !in x && '+' !in y
    requires ParseInt(x) == Some(a) && ParseInt(y) == Some(b)
    ensures ParseRequest(x + "+" + y + "+" + rest) == Reply(ToDecimal(WrapAdd(a, b)))
  {
    var request := x + "+" + y + "+" + rest;
    SplitLeadingOperands(x, y, rest);
    assert request[|x|] == '+';
    PlusNotGameOver(request);
  }

  /**
   Either of the first two `+`-separated parts failing to parse is answered
   with "error", provided some part after the first is non-empty, so that
   `split` keeps at least two parts.
   */
  lemma OperandFails(request: string)
    requires var f := Fields(request, '+'); exists k :: 1 <= k < |f| && f[k] != ""
    requires var f := Fields(request, '+'); ParseInt(f[0]).None? || ParseInt(f[1]).None?
    ensures ParseRequest(request) == Reply(ErrorReply)
  {
    var f := Fields(request, '+');
    var k :| 1 <= k < |f| && f[k] != "";
    JoinHasSeparator(f, '+');
    PlusNotGameOver(request);
    SplitOfJoinKeeps(f, '+', k);
  }

  /**
   A valid first operand followed by a second one that does not parse is
   answered with "error", whether or not more operands follow: "5+abc" and
   "5+abc+1" alike.
   */
  lemma BadSecondOperand(x: string, y: string, a: int, rest: string)
    requires '+' !in x && '+' !in y && y != ""
    requires ParseInt(x) == Some(a) && ParseInt(y).None?
    ensures ParseRequest(x + "+" + y) == Reply(ErrorReply)
    ensures ParseRequest(x + "+" + y + "+" + rest) == Reply(ErrorReply)
  {
    var request := x + "+" + y;
    assert request == Join([x, y], '+');
    SplitOfJoin([x, y], '+');
    assert request[|x|] == '+';
    PlusNotGameOver(request);
    var longer := x + "+" + y + "+" + rest;
    SplitLeadingOperands(x, y, rest);
    assert longer[|x|] == '+';
    PlusNotGameOver(longer);
  }

  /**
   Two `+` signs in a row after a valid first operand leave an empty second
   operand, which `parseInt` rejects: "5++3", "5++3+4" and "5+++3" are all
   answered with "error", as long as something other than `+` follows.
   */
  lemma EmptySecondOperand(x: string, a: int, rest: string)
    requires '+' !in x && ParseInt(x) == Some(a)
    requires exists j :: 0 <= j < |rest| && rest[j] != '+'
    ensures ParseRequest(x + "++" + rest) == Reply(ErrorReply)
  {
    var request := x + "++" + rest;
    var j :| 0 <= j < |rest| && rest[j] != '+';
    FieldsEmptySecondThenMore(x, rest, '+', j);
    assert ParseInt("").None?;
    OperandFails(request);
  }

  /**
   A request that starts with `+` has an empty first operand, which
   `parseInt` rejects: "+5", "+5+6" and "++5" are all answered with "error",
   as long as something other than `+` follows.
   */
  lemma EmptyFirstOperand(rest: string)
    requires exists j :: 0 <= j < |rest| && rest[j] != '+'
    ensures ParseRequest("+" + rest) == Reply(ErrorReply)
  {
    var request := "+" + rest;
    FieldsCons("", rest, '+');
    assert "" + ['+'] + rest == request;
    var j :| 0 <= j < |rest| && rest[j] != '+';
    NonEmptyField(rest, '+', j);
    var k :| 0 <= k < |Fields(rest, '+')| && Fields(rest, '+')[k] != "";
    var f := Fields(request, '+');
    assert f == [""] + Fields(rest, '+');
    assert f[k + 1] != "";
    OperandFails(request);
  }

  /** Splitting `x+y+rest` on `+` yields `x` and `y` first, whatever `rest` holds. */
  lemma SplitLeadingOperands(x: string, y: string, rest: string)
    requires '+' !in x && '+' !in y && y != ""
    ensures var parts := Split(x + "+" + y + "+" + rest, '+');
            |parts| >= 2 && parts[0] == x && parts[1] == y
  {
    SplitLeadingFields(x, y, rest, '+');
    assert x + "+" + y + "+" + rest == x + ['+'] + (y + ['+'] + rest);
  }

  /** A request holding a `+` is never "game over". */
  lemma PlusNotGameOver(request: string)
    requires '+' in request
    ensures request != GameOver
  {
  }

  /** A non-empty first operand that is not an `int` is answered with "error", whatever follows. */
  lemma BadFirstOperand(first: string, rest: string)
    requires '+' !in first && first != "" && first != GameOver
    requires ParseInt(first).None?
    ensures ParseRequest(first + "+" + rest) == Reply(ErrorReply)
    ensures ParseRequest(first) == Reply(ErrorReply)
  {
    var fields := [first] + Fields(rest, '+');
    JoinCons(first, Fields(rest, '+'), '+');
    SeparatorFreeFront([first], Fields(rest, '+'), '+');
    SplitOfJoinKeeps(fields, '+', 0);
    var request := first + "+" + rest;
    assert request != GameOver by {
      assert request[|first|] == '+';
      assert '+' !in GameOver;
    }
  }

  /** A valid first operand with no second one ("5", "5+", "+5") crashes the worker instead of replying. */
  lemma MissingSecondOperand(x: string, pluses: nat)
    requires '+' !in x && ParseInt(x).Some?
    ensures ParseRequest(x + seq(pluses, _ => '+')) == Crash
  {
    var request := x + seq(pluses, _ => '+');
    assert request != GameOver by {
      assert request[0] == x[0];
      assert GameOver[0] == 'g';
    }
    if pluses == 0 {
      assert request == x;
    } else {
      var fields := [x] + seq(pluses, _ => "");
      SeparatorFreeFront([x], seq(pluses, _ => ""), '+');
      JoinEmptyFields(x, pluses);
      SplitOfJoinKeeps(fields, '+', 0);
    }
  }

  lemma {:induction false} JoinEmptyFields(x: string, n: nat)
    requires n > 0
    ensures Join([x] + seq(n, _ => ""), '+') == x + seq(n, _ => '+')
    decreases n
  {
    var empties := seq(n, _ => "");
    if n == 1 {
      JoinCons(x, empties, '+');
    } else {
      JoinEmptyFields("", n - 1);
      assert [""] + seq(n - 1, _ => "") == empties;
      JoinCons(x, empties, '+');
      var pluses := seq(n - 1, _ => '+');
      assert "" + pluses == pluses;
      assert ['+'] + pluses == seq(n, _ => '+');
      assert x + ['+'] + pluses == x + (['+'] + pluses);
    }
  }

  /** A request of nothing but `+` signs splits into no parts and crashes the worker. */
  lemma OnlyPlusesCrash(n: nat)
    requires n > 0
    ensures ParseRequest(seq(n, _ => '+')) == Crash
  {
    JoinEmptyFields("", n);
    var fields := [""] + seq(n, _ => "");
    assert "" + seq(n, _ => '+') == seq(n, _ => '+');
    SplitOfEmptyFields(fields, '+');
    assert seq(n, _ => '+') != GameOver by {
      assert seq(n, _ => '+')[0] == '+';
    }
  }

  /** "1+2+3" is answered "3": the third operand is never looked at. */
  lemma ThreeOperandsExample()
    ensures ParseRequest("1+2+3") == Reply("3")
  {
    assert "1+2+3" == "1" + "+" + "2" + "+" + "3";
    assert ParseInt("1") == Some(1) && ParseInt("2") == Some(2) by {
      assert DigitsValue("1") == 1 && DigitsValue("2") == 2;
    }
    ExtraOperandsIgnored("1", "2", 1, 2, "3");
    assert ToDecimal(WrapAdd(1, 2)) == "3" by {
      assert WrapAdd(1, 2) == 3;
    }
  }

  /** "5+" and "5" crash the worker, while "abc" and the empty request are answered "error". */
  lemma OneOperandExamples()
    ensures ParseRequest("5+") == Crash
    ensures ParseRequest("5") == Crash
    ensures ParseRequest("abc") == Reply(ErrorReply)
    ensures ParseRequest("") == Reply(ErrorReply)
  {
    assert ParseInt("5") == Some(5) by {
      assert DigitsValue("5") == 5;
    }
    MissingSecondOperand("5", 1);
    assert "5" + seq(1, _ => '+') == "5+";
    MissingSecondOperand("5", 0);
    assert "5" + seq(0, _ => '+') == "5";
    BadFirstOperand("abc", "");
  }

  /** "5" is the first operand of the examples below. */
  lemma ParseFive()
    ensures ParseInt("5") == Some(5)
  {
    assert DigitsValue("5") == 5;
  }

  /** "5+abc" is answered "error": the second operand does not parse. */
  lemma BadSecondOperandExample()
    ensures ParseRequest("5+abc") == Reply(ErrorReply)
  {
    ParseFive();
    assert ParseInt("abc").None? by {
      assert !IsDigit("abc"[0]);
    }
    calc {
      ParseRequest("5+abc");
      { assert "5+abc" == "5" + "+" + "abc"; }
      ParseRequest("5" + "+" + "abc");
      { BadSecondOperand("5", "abc", 5, ""); }
      Reply(ErrorReply);
    }
  }

  /** "5+abc+1" is answered "error": the bad second operand is not the last one. */
  lemma BadMiddleOperandExample()
    ensures ParseRequest("5+abc+1") == Reply(ErrorReply)
  {
    ParseFive();
    assert ParseInt("abc").None? by {
      assert !IsDigit("abc"[0]);
    }
    calc {
      ParseRequest("5+abc+1");
      { assert "5+abc+1" == "5" + "+" + "abc" + "+" + "1"; }
      ParseRequest("5" + "+" + "abc" + "+" + "1");
      { BadSecondOperand("5", "abc", 5, "1"); }
      Reply(ErrorReply);
    }
  }

  /** "5++3" is answered "error": the second operand is empty. */
  lemma EmptySecondOperandExample()
    ensures ParseRequest("5++3") == Reply(ErrorReply)
  {
    ParseFive();
    assert "3"[0] != '+';
    calc {
      ParseRequest("5++3");
      { assert "5++3" == "5" + "++" + "3"; }
      ParseRequest("5" + "++" + "3");
      { EmptySecondOperand("5", 5, "3"); }
      Reply(ErrorReply);
    }
  }

  /** "5+++3" is answered "error": the second operand is empty, and so is the third. */
  lemma EmptyOperandsExample()
    ensures ParseRequest("5+++3") == Reply(ErrorReply)
  {
    ParseFive();
    assert "+3"[1] != '+';
    calc {
      ParseRequest("5+++3");
      { assert "5+++3" == "5" + "++" + "+3"; }
      ParseRequest("5" + "++" + "+3");
      { EmptySecondOperand("5", 5, "+3"); }
      Reply(ErrorReply);
    }
  }

  /** "+5" is answered "error": the first operand is empty. */
  lemma EmptyFirstOperandExample()
    ensures ParseRequest("+5") == Reply(ErrorReply)
  {
    assert "5"[0] != '+';
    calc {
      ParseRequest("+5");
      { assert "+5" == "+" + "5"; }
      ParseRequest("+" + "5");
      { EmptyFirstOperand("5"); }
      Reply(ErrorReply);
    }
  }

  /** "++5" is answered "error": the first two operands are empty. */
  lemma EmptyOperandsFirstExample()
    ensures ParseRequest("++5") == Reply(ErrorReply)
  {
    assert "+5"[1] != '+';
    calc {
      ParseRequest("++5");
      { assert "++5" == "+" + "+5"; }
      ParseRequest("+" + "+5");
      { EmptyFirstOperand("+5"); }
      Reply(ErrorReply);
    }
  }

  /** The largest `int` plus one wraps around to the smallest, as Java's `+` does. */
  lemma OverflowWraps()
    ensures ParseRequest(ToDecimal(MaxInt) + "+" + ToDecimal(1)) == Reply(ToDecimal(MinInt))
  {
    ParseToDecimal(MaxInt);
    ParseToDecimal(1);
    SumReply(ToDecimal(MaxInt), ToDecimal(1), MaxInt, 1);
  }
}

=== FILE: chat_client.dfy ===
/**
 The chat client's state and the operations on it (TCPClient), taken one at
 a time: the outbound requests with their validation, the listener
 registry, the `on*` notifiers, the once-only disconnect, and the listen
 loop that decodes each incoming line and notifies every listener.
 */
module ChatClient {
  import opened Options
  import opened ChatProtocol
  import opened Registry

  /** A registered listener, compared by identity as `List.contains` does for listeners. */
  type ListenerId = nat

  /** The `connection` field: null, an open socket, or a socket that has been closed. */
  datatype Socket = Absent | Open | Closed

  /**
   The client: its socket, the last validation error (`null` until the first
   one), the registered listeners in order, every line written to the
   server in order, and every listener callback made in order.
   */
  datatype Client = Client(
    socket: Socket,
    lastError: Option<string>,
    listeners: seq<ListenerId>,
    sent: seq<string>,
    delivered: seq<(ListenerId, Event)>)

  /** A freshly constructed client. */
  const Initial := Client(Absent, None, [], [], [])

  /** The client after an operation, and the operation's boolean result. */
  datatype Step = Step(client: Client, ok: bool)

  const EmptyMessageError := "Message was empty string."
  const MissingPartError := "Recipient or message not specified."

  /**
   What every operation keeps: no listener is registered twice, and every
   line written is a command the reference reading `ParseCommand` accepts.
   */
  predicate Valid(c: Client)
  {
    && NoDuplicates(c.listeners)
    && forall k :: 0 <= k < |c.sent| ==> ParseCommand(c.sent[k]).Some?
  }

  /** Only the lines written and the last error may differ between two states. */
  predicate OnlySentOrErrorChanged(c: Client, d: Client)
  {
    c.socket == d.socket && c.listeners == d.listeners && c.delivered == d.delivered
  }

  /** `connect`: a socket that is established replaces the field; a failure leaves it as it was. */
  function Connect(c: Client, established: bool): (r: Step)
    ensures r.ok == established
    ensures established ==> r.client.socket == Open
    ensures !established ==> r.client == c
    ensures r.client.listeners == c.listeners && r.client.sent == c.sent && r.client.delivered == c.delivered
  {
    if established then Step(c.(socket := Open), true) else Step(c, false)
  }

  /** `isConnectionActive`: the socket field is set, whether or not that socket has been closed. */
  function IsConnectionActive(c: Client): (active: bool)
    ensures active <==> !c.socket.Absent?
    ensures c.socket == Closed ==> active
  {
    c.socket != Absent
  }

  /** `sendCommand`: write the line when the connection is active and the line is not empty. */
  function SendCommand(c: Client, cmd: string): (r: Step)
    ensures r.ok <==> IsConnectionActive(c) && cmd != ""
    ensures r.client.sent == if r.ok then c.sent + [cmd] else c.sent
    ensures OnlySentOrErrorChanged(c, r.client) && r.client.lastError == c.lastError
  {
    if IsConnectionActive(c) && cmd != "" then Step(c.(sent := c.sent + [cmd]), true)
    else Step(c, false)
  }

  /** Writes the encoding of a request, which `ParseCommand` always accepts. */
  function SendRequest(c: Client, request: Command): (r: Client)
    ensures r.sent == if IsConnectionActive(c) then c.sent + [Encode(request)] else c.sent
    ensures OnlySentOrErrorChanged(c, r) && r.lastError == c.lastError
    ensures Valid(c) ==> Valid(r)
  {
    EncodeAlwaysParses(request);
    SendCommand(c, Encode(request)).client
  }

  /**
   `sendPublicMessage`: an empty message is refused with an error; any other
   is handed to `sendCommand`, and reported as sent whatever that returns.
   */
  function SendPublicMessage(c: Client, message: string): (r: Step)
    ensures r.ok <==> message != ""
    ensures r.ok && IsConnectionActive(c) ==> r.client.sent == c.sent + ["msg " + message]
    ensures !(r.ok && IsConnectionActive(c)) ==> r.client.sent == c.sent
    ensures r.client.lastError == if r.ok then c.lastError else Some(EmptyMessageError)
    ensures OnlySentOrErrorChanged(c, r.client)
    ensures Valid(c) ==> Valid(r.client)
  {
    if message != "" then Step(SendRequest(c, PublicMessage(message)), true)
    else Step(c.(lastError := Some(EmptyMessageError)), false)
  }

  /**
   `sendPrivateMessage`: an empty recipient or message is refused with an
   error; otherwise the line is handed to `sendCommand` and reported as sent.
   */
  function SendPrivateMessage(c: Client, recipient: string, message: string): (r: Step)
    ensures r.ok <==> recipient != "" && message != ""
    ensures r.ok && IsConnectionActive(c) ==> r.client.sent == c.sent + ["privmsg " + recipient + " " + message]
    ensures !(r.ok && IsConnectionActive(c)) ==> r.client.sent == c.sent
    ensures r.client.lastError == if r.ok then c.lastError else Some(MissingPartError)
    ensures OnlySentOrErrorChanged(c, r.client)
    ensures Valid(c) ==> Valid(r.client)
  {
    if recipient == "" || message == "" then Step(c.(lastError := Some(MissingPartError)), false)
    else Step(SendRequest(c, PrivateMessage(recipient, message)), true)
  }

  /** `tryLogin`: an empty username is silently ignored; no error is recorded. */
  function TryLogin(c: Client, username: string): (r: Client)
    ensures username != "" && IsConnectionActive(c) ==> r.sent == c.sent + ["login " + username]
    ensures !(username != "" && IsConnectionActive(c)) ==> r == c
    ensures OnlySentOrErrorChanged(c, r) && r.lastError == c.lastError
    ensures Valid(c) ==> Valid(r)
  {
    if username != "" then SendRequest(c, Login(username)) else c
  }

  /** `refreshUserList`: ask for the user list. */
  function RefreshUserList(c: Client): (r: Client)
    ensures r.sent == if IsConnectionActive(c) then c.sent + ["users"] else c.sent
    ensures OnlySentOrErrorChanged(c, r) && r.lastError == c.lastError
    ensures Valid(c) ==> Valid(r)
  {
    SendRequest(c, UsersQuery)
  }

  /** `askSupportedCommands`: ask for the commands the server supports. */
  function AskSupportedCommands(c: Client): (r: Client)
    ensures r.sent == if IsConnectionActive(c) then c.sent + ["help"] else c.sent
    ensures OnlySentOrErrorChanged(c, r) && r.lastError == c.lastError
    ensures Valid(c) ==> Valid(r)
  {
    SendRequest(c, HelpQuery)
  }

  /** `getLastError`: the last error recorded, or "" while there has been none. */
  function GetLastError(c: Client): (e: string)
    ensures c.lastError.None? ==> e == ""
    ensures c.lastError.Some? ==> e == c.lastError.value
  {
    c.lastError.GetOr("")
  }

  /** `addListener`. */
  function AddListener(c: Client, l: ListenerId): (r: Client)
    ensures r.listeners == Add(c.listeners, l)
    ensures r.socket == c.socket && r.sent == c.sent && r.delivered == c.delivered && r.lastError == c.lastError
    ensures Valid(c) ==> Valid(r)
  {
    var r := c.(listeners := Add(c.listeners, l));
    assert Valid(c) ==> Valid(r) by {
      if Valid(c) {
        AddKeepsRegistry(c.listeners, l);
      }
    }
    r
  }

  /** `removeListener`. */
  function RemoveListener(c: Client, l: ListenerId): (r: Client)
    ensures r.listeners == Remove(c.listeners, l)
    ensures r.socket == c.socket && r.sent == c.sent && r.delivered == c.delivered && r.lastError == c.lastError
    ensures Valid(c) ==> Valid(r)
  {
    var r := c.(listeners := Remove(c.listeners, l));
    assert Valid(c) ==> Valid(r) by {
      if Valid(c) {
        RemoveKeepsOthers(c.listeners, l);
      }
    }
    r
  }

  /** Every `on*` notifier: call each registered listener with the event, in list order. */
  function Notify(c: Client, e: Event): (r: Client)
    ensures |r.delivered| == |c.delivered| + |c.listeners|
    ensures r.delivered[..|c.delivered|] == c.delivered
    ensures forall k :: 0 <= k < |c.listeners| ==> r.delivered[|c.delivered| + k] == (c.listeners[k], e)
    ensures r.socket == c.socket && r.listeners == c.listeners && r.sent == c.sent && r.lastError == c.lastError
    ensures Valid(c) ==> Valid(r)
  {
    c.(delivered := c.delivered + FanOut(c.listeners, e))
  }

  /**
   `disconnect`: an open socket is closed and the listeners are told once;
   a socket already closed is left alone. The field must be set: the Java
   method dereferences it unconditionally.
   */
  function Disconnect(c: Client): (r: Client)
    requires c.socket != Absent
    ensures r.socket == Closed
    ensures c.socket == Closed ==> r == c
    ensures c.socket == Open ==> r.delivered == c.delivered + FanOut(c.listeners, Disconnected)
    ensures r.listeners == c.listeners && r.sent == c.sent && r.lastError == c.lastError
    ensures Valid(c) ==> Valid(r)
  {
    if c.socket.Open? then
      var closed := c.(socket := Closed);
      closed.(delivered := closed.delivered + FanOut(closed.listeners, Disconnected))
    else
      assert c.socket.Closed?;
      c
  }

  /** A second `disconnect` changes nothing. */
  lemma DisconnectIdempotent(c: Client)
    requires c.socket != Absent
    ensures Disconnect(Disconnect(c)) == Disconnect(c)
  {
  }

  /**
   Disconnecting an open client tells each registered listener exactly once,
   and however many more times `disconnect` is called, no one is told again.
   */
  lemma DisconnectNotifiesOnce(c: Client, l: ListenerId, again: nat)
    requires Valid(c) && c.socket == Open
    ensures var r := Disconnect(c);
            r.delivered == c.delivered + FanOut(c.listeners, Disconnected)
            && Count(FanOut(c.listeners, Disconnected), (l, Disconnected)) == (if l in c.listeners then 1 else 0)
            && DisconnectTimes(r, again) == r
  {
    FanOutExactlyOnce(c.listeners, Disconnected, l);
    DisconnectRepeated(Disconnect(c), again);
  }

  /** `disconnect` called `n` times in a row. */
  function DisconnectTimes(c: Client, n: nat): (r: Client)
    requires c.socket != Absent
    ensures r.socket != Absent
    decreases n
  {
    if n == 0 then c else DisconnectTimes(Disconnect(c), n - 1)
  }

  lemma {:induction false} DisconnectRepeated(c: Client, n: nat)
    requires c.socket == Closed
    ensures DisconnectTimes(c, n) == c
  {
    if n > 0 {
      DisconnectRepeated(Disconnect(c), n - 1);
    }
  }

  /**
   One pass of the listen loop: an empty line is skipped (the read is
   repeated); a malformed line throws out of the loop, ending the listening
   thread (`ok` false); any other line is decoded and every listener notified.
   */
  function Receive(c: Client, line: string): (r: Step)
    ensures line == "" ==> r == Step(c, true)
    ensures !r.ok <==> line != "" && Decode(line).Malformed?
    ensures !r.ok ==> r.client == c
    ensures r.ok && line != "" ==> r.client == Notify(c, Decode(line).event)
  {
    if line == "" then Step(c, true)
    else
      match Decode(line)
      case Malformed => Step(c, false)
      case Parsed(e) => Step(Notify(c, e), true)
  }

  /**
   `parseIncomingCommands`: the listen loop runs only while the connection is
   active. Without a socket it reads nothing and ends at once; with one it
   reads the lines until a malformed one ends it. Reading never changes the
   socket field, so testing it once is testing it before every line.
   */
  function Listen(c: Client, lines: seq<string>): (r: Step)
    ensures r.client.socket == c.socket && r.client.listeners == c.listeners
    ensures r.client.sent == c.sent && r.client.lastError == c.lastError
    ensures Valid(c) ==> Valid(r.client)
    ensures !IsConnectionActive(c) ==> r == Step(c, true)
  {
    if !IsConnectionActive(c) then Step(c, true) else ReadLines(c, lines)
  }

  /** The body of the listen loop over the lines read, until a malformed one ends it. */
  function ReadLines(c: Client, lines: seq<string>): (r: Step)
    ensures r.client.socket == c.socket && r.client.listeners == c.listeners
    ensures r.client.sent == c.sent && r.client.lastError == c.lastError
    ensures Valid(c) ==> Valid(r.client)
    decreases |lines|
  {
    if |lines| == 0 then Step(c, true)
    else
      var first := Receive(c, lines[0]);
      if !first.ok then first else ReadLines(first.client, lines[1..])
  }

  /** The events decoded from the lines, in order, up to the first malformed line. */
  function Events(lines: seq<string>): seq<Event>
  {
    if |lines| == 0 then []
    else if lines[0] == "" then Events(lines[1..])
    else
      match Decode(lines[0])
      case Malformed => []
      case Parsed(e) => [e] + Events(lines[1..])
  }

  /** Whether some non-empty line is malformed. */
  predicate HasMalformed(lines: seq<string>)
  {
    exists k :: 0 <= k < |lines| && lines[k] != "" && Decode(lines[k]).Malformed?
  }

  /** Each event fanned out to all listeners before the next one is. */
  function Deliveries(listeners: seq<ListenerId>, events: seq<Event>): seq<(ListenerId, Event)>
  {
    if |events| == 0 then []
    else FanOut(listeners, events[0]) + Deliveries(listeners, events[1..])
  }

  /**
   The listen loop delivers the decoded events in the order the lines arrived,
   each to every listener in list order before the next, and keeps running
   exactly as long as no line is malformed. Without a socket nothing is read
   and nothing is delivered.
   */
  lemma ListenDelivers(c: Client, lines: seq<string>)
    ensures IsConnectionActive(c) ==>
              Listen(c, lines).client.delivered == c.delivered + Deliveries(c.listeners, Events(lines))
    ensures IsConnectionActive(c) ==> (Listen(c, lines).ok <==> !HasMalformed(lines))
    ensures !IsConnectionActive(c) ==> Listen(c, lines).client == c && Listen(c, lines).ok
  {
    ReadLinesDeliver(c, lines);
    ReadLinesSurvive(c, lines);
  }

  lemma {:induction false} ReadLinesDeliver(c: Client, lines: seq<string>)
    ensures ReadLines(c, lines).client.delivered == c.delivered + Deliveries(c.listeners, Events(lines))
    decreases |lines|
  {
    if |lines| == 0 {
      assert c.delivered + [] == c.delivered;
    } else {
      var first := Receive(c, lines[0]);
      if !first.ok {
        assert Events(lines) == [];
        assert c.delivered + [] == c.delivered;
      } else {
        ReadLinesDeliver(first.client, lines[1..]);
        if lines[0] != "" {
          var e := Decode(lines[0]).event;
          assert Events(lines) == [e] + Events(lines[1..]);
          DeliveriesCons(c.listeners, e, Events(lines[1..]));
        }
      }
    }
  }

  lemma {:induction false} ReadLinesSurvive(c: Client, lines: seq<string>)
    ensures ReadLines(c, lines).ok <==> !HasMalformed(lines)
    decreases |lines|
  {
    if |lines| > 0 {
      HasMalformedCons(lines);
      var first := Receive(c, lines[0]);
      if first.ok {
        ReadLinesSurvive(first.client, lines[1..]);
      }
    }
  }

  /** A list of lines holds a malformed one exactly when its head is one or its tail holds one. */
  lemma HasMalformedCons(lines: seq<string>)
    requires |lines| > 0
    ensures HasMalformed(lines) <==> (lines[0] != "" && Decode(lines[0]).Malformed?) || HasMalformed(lines[1..])
  {
    if HasMalformed(lines) {
      var k :| 0 <= k < |lines| && lines[k] != "" && Decode(lines[k]).Malformed?;
      if k > 0 {
        assert lines[1..][k - 1] == lines[k];
      }
    }
    if HasMalformed(lines[1..]) {
      var k :| 0 <= k < |lines[1..]| && lines[1..][k] != "" && Decode(lines[1..][k]).Malformed?;
      assert lines[k + 1] == lines[1..][k];
    }
  }

  lemma DeliveriesCons(listeners: seq<ListenerId>, e: Event, events: seq<Event>)
    ensures Deliveries(listeners, [e] + events) == FanOut(listeners, e) + Deliveries(listeners, events)
  {
    assert ([e] + events)[1..] == events;
  }

  /** Once a malformed line has ended the loop, nothing read afterwards is delivered. */
  lemma ListenStops(c: Client, first: seq<string>, next: seq<string>)
    requires !Listen(c, first).ok
    ensures Listen(c, first + next) == Listen(c, first)
  {
    ReadLinesStops(c, first, next);
  }

  lemma {:induction false} ReadLinesStops(c: Client, first: seq<string>, next: seq<string>)
    requires !ReadLines(c, first).ok
    ensures ReadLines(c, first + next) == ReadLines(c, first)
    decreases |first|
  {
    assert |first| > 0;
    var both := first + next;
    assert both[0] == first[0];
    assert both[1..] == first[1..] + next;
    var step := Receive(c, first[0]);
    assert ReadLines(c, both) == if !step.ok then step else ReadLines(step.client, both[1..]);
    assert ReadLines(c, first) == if !step.ok then step else ReadLines(step.client, first[1..]);
    if step.ok {
      ReadLinesStops(step.client, first[1..], next);
    }
  }

  /** A new client reports no error, is not connected, and has no listeners. */
  lemma InitialState()
    ensures GetLastError(Initial) == ""
    ensures !IsConnectionActive(Initial)
    ensures Valid(Initial)
  {
  }

  /** While no socket has been set, requests are accepted or refused but nothing is written. */
  lemma NothingSentUnconnected(c: Client, message: string)
    requires c.socket == Absent
    ensures SendPublicMessage(c, message).client.sent == c.sent
    ensures SendPublicMessage(c, message).ok == (message != "")
  {
  }

  /**
   A refused message returns false, and `getLastError` then gives the
   matching non-empty reason: an empty public message, or a private one
   missing its recipient or its text.
   */
  lemma RefusalIsReported(c: Client, recipient: string, message: string)
    requires recipient == "" || message == ""
    ensures !SendPublicMessage(c, "").ok
    ensures GetLastError(SendPublicMessage(c, "").client) == EmptyMessageError != ""
    ensures !SendPrivateMessage(c, recipient, message).ok
    ensures GetLastError(SendPrivateMessage(c, recipient, message).client) == MissingPartError != ""
  {
  }

  /** Every line written for a message reads back, under `ParseCommand`, as that message. */
  lemma SentLineReadsBack(c: Client, recipient: string, message: string)
    requires IsConnectionActive(c) && recipient != "" && message != "" && ' ' !in recipient
    ensures var r := SendPrivateMessage(c, recipient, message).client;
            ParseCommand(r.sent[|r.sent| - 1]) == Some(PrivateMessage(recipient, message))
    ensures var r := SendPublicMessage(c, message).client;
            ParseCommand(r.sent[|r.sent| - 1]) == Some(PublicMessage(message))
  {
    ParseEncode(PrivateMessage(recipient, message));
    ParseEncode(PublicMessage(message));
  }
}

=== FILE: chat_protocol.dfy ===
/**
 The chat protocol as the client sees it: the command lines it sends and the
 response lines it decodes into events. Each direction is proved against a
 reference grammar of the wire format (one keyword, then its space-separated
 fields): `ParseCommand` reads a command line and `ResponseLine` spells an
 event. The grammar is written for this model from the shape of the lines
 the client sends and decodes; the chat server's code is not part of this
 model.
 */
module ChatProtocol {
  import opened Options
  import opened JavaStrings

  /** What the client's listeners are told; one variant per `on*` notifier. */
  datatype Event =
    | LoginResult(success: bool, message: string)
    | UserList(users: seq<string>)
    | MessageReceived(isPrivate: bool, sender: string, text: string)
    | MessageError(reason: string)
    | CommandError(reason: string)
    | SupportedCommands(commands: seq<string>)
    | Disconnected

  /** The result of decoding one line: an event, or the index fault a missing field causes. */
  datatype Decoded = Parsed(event: Event) | Malformed

  const Unrecognized := "The response from the server could not be recognized."

  /** The words the protocol gives a meaning to, in either direction. */
  datatype Keyword =
    | LoginOkWord | LoginErrWord | UsersWord | MsgWord | PrivMsgWord
    | MsgErrWord | CmdErrorWord | SupportedWord | LoginWord | HelpWord
    | OtherWord

  /** How each keyword is spelled on the wire. */
  function Spelling(k: Keyword): (word: string)
    requires !k.OtherWord?
    ensures |word| > 0 && ' ' !in word
  {
    match k
    case LoginOkWord => "loginok"
    case LoginErrWord => "loginerr"
    case UsersWord => "users"
    case MsgWord => "msg"
    case PrivMsgWord => "privmsg"
    case MsgErrWord => "msgerr"
    case CmdErrorWord => "cmderror"
    case SupportedWord => "supported"
    case LoginWord => "login"
    case HelpWord => "help"
  }

  /** Every keyword the protocol spells, in the order the client's `switch` lists them. */
  const Keywords: seq<Keyword> := [
    LoginOkWord, LoginErrWord, UsersWord, MsgWord, PrivMsgWord,
    MsgErrWord, CmdErrorWord, SupportedWord, LoginWord, HelpWord]

  predicate Spelled(ks: seq<Keyword>)
  {
    forall j :: 0 <= j < |ks| ==> !ks[j].OtherWord?
  }

  /** The keyword a word spells, compared exactly as Java's `switch` on strings does. */
  function KeywordOf(word: string): (k: Keyword)
    ensures !k.OtherWord? ==> Spelling(k) == word
    ensures k.OtherWord? <==> forall j :: 0 <= j < |Keywords| ==> Spelling(Keywords[j]) != word
  {
    Lookup(word, Keywords)
  }

  /** The first keyword of `ks` spelled `word`, or `OtherWord` when there is none. */
  function Lookup(word: string, ks: seq<Keyword>): (k: Keyword)
    requires Spelled(ks)
    ensures !k.OtherWord? ==> k in ks && Spelling(k) == word
    ensures k.OtherWord? <==> forall j :: 0 <= j < |ks| ==> Spelling(ks[j]) != word
  {
    if |ks| == 0 then OtherWord
    else if Spelling(ks[0]) == word then ks[0]
    else
      assert forall j :: 1 <= j < |ks| ==> ks[j] == ks[1..][j - 1];
      Lookup(word, ks[1..])
  }

  /** No two keywords share a spelling. */
  lemma SpellingInjective(a: Keyword, b: Keyword)
    requires !a.OtherWord? && !b.OtherWord? && Spelling(a) == Spelling(b)
    ensures a == b
  {
  }

  /** Spellings are distinct, so every keyword is recognised from its spelling. */
  lemma KeywordOfSpelling(k: Keyword)
    requires !k.OtherWord?
    ensures KeywordOf(Spelling(k)) == k
  {
    assert k in Keywords;
    var r := KeywordOf(Spelling(k));
    SpellingInjective(r, k);
  }

  /** Responses whose handling reads the text after the first space. */
  predicate ReadsRest(k: Keyword)
  {
    k in {LoginErrWord, UsersWord, MsgWord, PrivMsgWord, MsgErrWord, CmdErrorWord, SupportedWord}
  }

  /** The text after the first space of a line, if it has one. */
  function Rest(command: seq<string>): (rest: Option<string>)
    requires 1 <= |command| <= 2
    ensures rest.Some? <==> |command| == 2
  {
    if |command| == 2 then Some(command[1]) else None
  }

  /** The switch in the listen loop: split on the first space and dispatch on the keyword. */
  function Decode(line: string): (d: Decoded)
    ensures d.Parsed? ==> !d.event.Disconnected?
    ensures d.Parsed? && d.event.LoginResult? && d.event.success ==> d.event.message == " "
  {
    var command := SplitFirst(line, ' ');
    DecodeFields(KeywordOf(command[0]), Rest(command))
  }

  /**
   One case of the switch: `loginok` ignores the rest; a keyword that reads
   the rest faults when there is none; `msg` and `privmsg` split the rest once
   more into sender and text, faulting when there is no text; `users` and
   `supported` split it on every space; anything else is unrecognized.
   */
  function DecodeFields(k: Keyword, rest: Option<string>): (d: Decoded)
    ensures d.Malformed? ==> ReadsRest(k)
    ensures !ReadsRest(k) && !k.LoginOkWord? ==> d == Parsed(CommandError(Unrecognized))
    ensures d.Parsed? ==> !d.event.Disconnected?
    ensures d.Parsed? && d.event.LoginResult? && d.event.success ==> d.event.message == " "
  {
    match k
    case LoginOkWord => Parsed(LoginResult(true, " "))
    case LoginErrWord => if rest.None? then Malformed else Parsed(LoginResult(false, rest.value))
    case UsersWord => if rest.None? then Malformed else Parsed(UserList(Split(rest.value, ' ')))
    case MsgWord => if rest.None? then Malformed else DecodeMessage(false, rest.value)
    case PrivMsgWord => if rest.None? then Malformed else DecodeMessage(true, rest.value)
    case MsgErrWord => if rest.None? then Malformed else Parsed(MessageError(rest.value))
    case CmdErrorWord => if rest.None? then Malformed else Parsed(CommandError(rest.value))
    case SupportedWord => if rest.None? then Malformed else Parsed(SupportedCommands(Split(rest.value, ' ')))
    case _ => Parsed(CommandError(Unrecognized))
  }

  /** The second split of a message line: sender up to the next space, text the whole rest. */
  function DecodeMessage(isPrivate: bool, rest: string): (d: Decoded)
    ensures d.Malformed? <==> ' ' !in rest
    ensures d.Parsed? ==> d.event.MessageReceived? && d.event.isPrivate == isPrivate
    ensures d.Parsed? ==> ' ' !in d.event.sender && rest == d.event.sender + " " + d.event.text
  {
    var parts := SplitFirst(rest, ' ');
    if |parts| < 2 then Malformed
    else Parsed(MessageReceived(isPrivate, parts[0], parts[1]))
  }

  /** Splitting a line at its first space separates a space-free keyword from the rest. */
  lemma KeywordSplit(keyword: string, rest: string)
    requires ' ' !in keyword
    ensures SplitFirst(keyword + " " + rest, ' ') == [keyword, rest]
  {
    SplitFirstJoined(keyword, ' ', rest);
  }

  /** A line of a keyword, a space and a rest is decoded from that keyword and rest. */
  lemma DecodeKeywordLine(keyword: string, rest: string)
    requires ' ' !in keyword
    ensures Decode(keyword + " " + rest) == DecodeFields(KeywordOf(keyword), Some(rest))
  {
    KeywordSplit(keyword, rest);
  }

  /** A line of a protocol keyword, a space and a rest is decoded as that keyword with that rest. */
  lemma DecodeSpelledLine(k: Keyword, rest: string)
    requires !k.OtherWord?
    ensures Decode(Spelling(k) + " " + rest) == DecodeFields(k, Some(rest))
  {
    KeywordOfSpelling(k);
    DecodeKeywordLine(Spelling(k), rest);
  }

  /** A line without a space is decoded as a keyword with no rest. */
  lemma DecodeBareLine(line: string)
    requires ' ' !in line
    ensures Decode(line) == DecodeFields(KeywordOf(line), None)
  {
  }

  /** Names that a space-separated list carries unchanged through a split. */
  predicate ListableNames(names: seq<string>)
  {
    && |names| >= 1
    && SeparatorFree(names, ' ')
    && (|names| == 1 || names[|names| - 1] != "")
  }

  /**
   Events a response line can carry exactly: a successful login carries the
   single-space message the decoder reports, senders have no space, and name
   lists survive the split.
   */
  predicate Transmittable(e: Event)
  {
    match e
    case LoginResult(success, message) => success ==> message == " "
    case UserList(users) => ListableNames(users)
    case MessageReceived(_, sender, _) => ' ' !in sender
    case SupportedCommands(commands) => ListableNames(commands)
    case Disconnected => false
    case _ => true
  }

  /** The reference spelling of an event as a response line: the keyword, then its fields separated by spaces. */
  function ResponseLine(e: Event): (line: string)
    requires !e.Disconnected?
  {
    match e
    case LoginResult(success, message) =>
      if success then Spelling(LoginOkWord) else Spelling(LoginErrWord) + " " + message
    case UserList(users) => Spelling(UsersWord) + " " + Join(users, ' ')
    case MessageReceived(isPrivate, sender, text) =>
      Spelling(if isPrivate then PrivMsgWord else MsgWord) + " " + (sender + " " + text)
    case MessageError(reason) => Spelling(MsgErrWord) + " " + reason
    case CommandError(reason) => Spelling(CmdErrorWord) + " " + reason
    case SupportedCommands(commands) => Spelling(SupportedWord) + " " + Join(commands, ' ')
  }

  /** Every transmittable event, spelled as a response line, is decoded by the client back to itself. */
  lemma DecodeResponseLine(e: Event)
    requires Transmittable(e)
    ensures Decode(ResponseLine(e)) == Parsed(e)
  {
    match e
    case LoginResult(success, message) =>
      if success {
        KeywordOfSpelling(LoginOkWord);
      } else {
        DecodeReasonLine(LoginErrWord, message);
      }
    case UserList(users) => DecodeListLine(UsersWord, users);
    case MessageReceived(isPrivate, sender, text) => DecodeMessageLine(isPrivate, sender, text);
    case MessageError(reason) => DecodeReasonLine(MsgErrWord, reason);
    case CommandError(reason) => DecodeReasonLine(CmdErrorWord, reason);
    case SupportedCommands(commands) => DecodeListLine(SupportedWord, commands);
  }

  /** "loginerr R", "msgerr R" and "cmderror R" pass the whole remainder R through verbatim. */
  lemma DecodeReasonLine(k: Keyword, reason: string)
    requires k in {LoginErrWord, MsgErrWord, CmdErrorWord}
    ensures Decode(Spelling(k) + " " + reason) == Parsed(
              match k
              case LoginErrWord => LoginResult(false, reason)
              case MsgErrWord => MessageError(reason)
              case _ => CommandError(reason))
  {
    KeywordOfSpelling(k);
    DecodeKeywordLine(Spelling(k), reason);
  }

  /** "users N1 N2 ..." and "supported C1 C2 ..." yield their names in order. */
  lemma DecodeListLine(k: Keyword, names: seq<string>)
    requires k in {UsersWord, SupportedWord}
    requires ListableNames(names)
    ensures Decode(Spelling(k) + " " + Join(names, ' ')) == Parsed(
              if k.UsersWord? then UserList(names) else SupportedCommands(names))
  {
    KeywordOfSpelling(k);
    DecodeKeywordLine(Spelling(k), Join(names, ' '));
    SplitOfJoin(names, ' ');
  }

  /**
   "msg S T" and "privmsg S T" name the sender S up to the next space and keep
   the whole rest T as text; only `privmsg` marks the message private.
   */
  lemma DecodeMessageLine(isPrivate: bool, sender: string, text: string)
    requires ' ' !in sender
    ensures Decode(ResponseLine(MessageReceived(isPrivate, sender, text)))
         == Parsed(MessageReceived(isPrivate, sender, text))
  {
    var k := if isPrivate then PrivMsgWord else MsgWord;
    var rest := sender + " " + text;
    calc {
      Decode(ResponseLine(MessageReceived(isPrivate, sender, text)));
      Decode(Spelling(k) + " " + rest);
      { DecodeSpelledLine(k, rest); }
      DecodeFields(k, Some(rest));
      DecodeMessage(isPrivate, rest);
      { DecodeSenderText(isPrivate, sender, text); }
      Parsed(MessageReceived(isPrivate, sender, text));
    }
  }

  /** The second split hands back the space-free sender and the whole text. */
  lemma DecodeSenderText(isPrivate: bool, sender: string, text: string)
    requires ' ' !in sender
    ensures DecodeMessage(isPrivate, sender + " " + text) == Parsed(MessageReceived(isPrivate, sender, text))
  {
    KeywordSplit(sender, text);
  }

  /** "loginok" reports success with a single space as its message; anything after it is ignored. */
  lemma DecodeLoginOk(rest: string)
    ensures Decode("loginok") == Parsed(LoginResult(true, " "))
    ensures Decode("loginok " + rest) == Parsed(LoginResult(true, " "))
  {
    LoginOkSpaced(rest);
    DecodeKeywordLine("loginok", rest);
  }

  lemma LoginOkSpaced(rest: string)
    ensures "loginok " + rest == "loginok" + " " + rest
  {
    assert "loginok " == "loginok" + " ";
  }

  /** Any word outside the protocol is reported as an unrecognized response, whatever follows it. */
  lemma DecodeUnknownKeyword(keyword: string, rest: string)
    requires ' ' !in keyword
    requires KeywordOf(keyword) in {OtherWord, LoginWord, HelpWord}
    ensures Decode(keyword) == Parsed(CommandError(Unrecognized))
    ensures Decode(keyword + " " + rest) == Parsed(CommandError(Unrecognized))
  {
    DecodeKeywordLine(keyword, rest);
  }

  /** A line without a space is malformed exactly when its keyword needs a rest. */
  lemma MalformedBare(line: string)
    requires ' ' !in line
    ensures Decode(line).Malformed? <==> ReadsRest(KeywordOf(line))
  {
  }

  /**
   A line with a space is malformed exactly when it is a `msg` or `privmsg`
   line with no second space: a sender and no text.
   */
  lemma MalformedWithRest(keyword: string, rest: string)
    requires ' ' !in keyword
    ensures Decode(keyword + " " + rest).Malformed? <==>
              KeywordOf(keyword) in {MsgWord, PrivMsgWord} && ' ' !in rest
  {
    DecodeKeywordLine(keyword, rest);
    RestMalformed(KeywordOf(keyword), rest);
  }

  /** With a rest present, only a message whose rest has no second space faults. */
  lemma RestMalformed(k: Keyword, rest: string)
    ensures DecodeFields(k, Some(rest)).Malformed? <==> k in {MsgWord, PrivMsgWord} && ' ' !in rest
  {
  }

  /** "users" alone carries no list: reading the missing field faults. */
  lemma UsersAloneMalformed()
    ensures Decode("users").Malformed?
  {
    KeywordOfSpelling(UsersWord);
    MalformedBare(Spelling(UsersWord));
  }

  /** "msg alice" names a sender but no text: reading the missing field faults. */
  lemma MessageWithoutTextMalformed()
    ensures Decode("msg alice").Malformed?
  {
    var rest := "alice";
    assert ' ' !in rest;
    assert "msg alice" == Spelling(MsgWord) + " " + rest;
    KeywordOfSpelling(MsgWord);
    MalformedWithRest(Spelling(MsgWord), rest);
  }

  /**
   Whatever follows "users " or "supported " is split on every space, empty
   middle fields kept and empty trailing ones dropped.
   */
  lemma DecodeListAnyRest(k: Keyword, rest: string)
    requires k in {UsersWord, SupportedWord}
    ensures Decode(Spelling(k) + " " + rest) == Parsed(
              if k.UsersWord? then UserList(Split(rest, ' ')) else SupportedCommands(Split(rest, ' ')))
  {
    KeywordOfSpelling(k);
    DecodeKeywordLine(Spelling(k), rest);
  }

  /** What the client asks of the server. */
  datatype Command =
    | Login(username: string)
    | PublicMessage(text: string)
    | PrivateMessage(recipient: string, text: string)
    | UsersQuery
    | HelpQuery

  /** The command line the client writes for a request. */
  function Encode(c: Command): (line: string)
    ensures |line| > 0
  {
    match c
    case Login(username) => "login " + username
    case PublicMessage(text) => "msg " + text
    case PrivateMessage(recipient, text) => "privmsg " + recipient + " " + text
    case UsersQuery => "users"
    case HelpQuery => "help"
  }

  /** The reference reading of a command line: keyword, then its arguments. */
  function ParseCommand(line: string): (c: Option<Command>)
  {
    var command := SplitFirst(line, ' ');
    ParseFields(KeywordOf(command[0]), Rest(command))
  }

  function ParseFields(k: Keyword, rest: Option<string>): (c: Option<Command>)
  {
    match (k, rest)
    case (UsersWord, None) => Some(UsersQuery)
    case (HelpWord, None) => Some(HelpQuery)
    case (LoginWord, Some(r)) => Some(Login(r))
    case (MsgWord, Some(r)) => Some(PublicMessage(r))
    case (PrivMsgWord, Some(r)) =>
      var parts := SplitFirst(r, ' ');
      if |parts| == 2 then Some(PrivateMessage(parts[0], parts[1])) else None
    case _ => None
  }

  /** A private message's recipient is the text up to the first space after the keyword. */
  predicate Addressable(c: Command)
  {
    c.PrivateMessage? ==> ' ' !in c.recipient
  }

  /** The literal prefixes of the encoder are the keyword spellings followed by a space. */
  lemma SpacedKeywords()
    ensures "login " == Spelling(LoginWord) + " "
    ensures "msg " == Spelling(MsgWord) + " "
    ensures "privmsg " == Spelling(PrivMsgWord) + " "
  {
  }

  /** The reference reading gives back exactly the command the client encoded. */
  lemma ParseEncode(c: Command)
    requires Addressable(c)
    ensures ParseCommand(Encode(c)) == Some(c)
  {
    SpacedKeywords();
    match c
    case Login(username) =>
      ParseSpelledLine(LoginWord, username);
    case PublicMessage(text) =>
      ParseSpelledLine(MsgWord, text);
    case PrivateMessage(recipient, text) =>
      ParsePrivateMessage(recipient, text);
    case UsersQuery =>
      KeywordOfSpelling(UsersWord);
    case HelpQuery =>
      KeywordOfSpelling(HelpWord);
  }

  /** The reference reading takes a protocol keyword, a space and a rest as that keyword with that rest. */
  lemma ParseSpelledLine(k: Keyword, rest: string)
    requires !k.OtherWord?
    ensures ParseCommand(Spelling(k) + " " + rest) == ParseFields(k, Some(rest))
  {
    KeywordSplit(Spelling(k), rest);
    KeywordOfSpelling(k);
  }

  lemma ParsePrivateMessage(recipient: string, text: string)
    requires ' ' !in recipient
    ensures ParseCommand(Encode(PrivateMessage(recipient, text))) == Some(PrivateMessage(recipient, text))
  {
    var rest := recipient + " " + text;
    var line := Encode(PrivateMessage(recipient, text));
    assert line == Spelling(PrivMsgWord) + " " + rest by {
      assert "privmsg " == Spelling(PrivMsgWord) + " ";
    }
    ParseSpelledLine(PrivMsgWord, rest);
    KeywordSplit(recipient, text);
    assert ParseFields(PrivMsgWord, Some(rest)) == Some(PrivateMessage(recipient, text));
  }

  /** Every line the reference reading accepts as a command is exactly the encoding of what it reads. */
  lemma EncodeParse(line: string)
    requires ParseCommand(line).Some?
    ensures Addressable(ParseCommand(line).value)
    ensures Encode(ParseCommand(line).value) == line
  {
    var command := SplitFirst(line, ' ');
    var k := KeywordOf(command[0]);
    if |command| == 2 {
      assert line == Spelling(k) + " " + command[1];
      EncodeSpacedFields(k, command[1]);
    } else {
      assert line == Spelling(k);
      EncodeBareFields(k);
    }
  }

  /** An accepted keyword with arguments is re-encoded as the keyword, a space and those arguments. */
  lemma EncodeSpacedFields(k: Keyword, rest: string)
    requires ParseFields(k, Some(rest)).Some?
    ensures Addressable(ParseFields(k, Some(rest)).value)
    ensures Encode(ParseFields(k, Some(rest)).value) == Spelling(k) + " " + rest
  {
    SpacedKeywords();
    if k.PrivMsgWord? {
      var parts := SplitFirst(rest, ' ');
      assert rest == parts[0] + " " + parts[1];
    }
  }

  /** An accepted bare keyword is re-encoded as just that keyword. */
  lemma EncodeBareFields(k: Keyword)
    requires ParseFields(k, None).Some?
    ensures Addressable(ParseFields(k, None).value)
    ensures Encode(ParseFields(k, None).value) == Spelling(k)
  {
  }

  /** Even a recipient with spaces yields a line the reference reading accepts, though as a different command. */
  lemma EncodeAlwaysParses(c: Command)
    ensures ParseCommand(Encode(c)).Some?
  {
    if c.PrivateMessage? {
      var rest := c.recipient + " " + c.text;
      assert Encode(c) == Spelling(PrivMsgWord) + " " + rest by {
        assert "privmsg " == Spelling(PrivMsgWord) + " ";
      }
      ParseSpelledLine(PrivMsgWord, rest);
      assert rest[|c.recipient|] == ' ';
    } else {
      ParseEncode(c);
    }
  }
}

=== FILE: java_ints.dfy ===
/**
 Java's 32-bit `int` as far as the arithmetic server uses it:
 `Integer.parseInt` (radix 10), `Integer.toString`, and `+` with wrap-around.
 */
module JavaInts {
  import opened Options

  const MinInt: int := -0x8000_0000
  const MaxInt: int := 0x7fff_ffff
  const Modulus: int := 0x1_0000_0000

  predicate IsInt32(x: int)
  {
    MinInt <= x <= MaxInt
  }

  /** Java's `a + b` on two `int`s: the true sum brought back into range modulo 2^32. */
  function WrapAdd(a: int, b: int): (r: int)
    requires IsInt32(a) && IsInt32(b)
    ensures IsInt32(r)
    ensures (r - (a + b)) % Modulus == 0
    ensures IsInt32(a + b) ==> r == a + b
  {
    var s := a + b;
    if s > MaxInt then s - Modulus
    else if s < MinInt then s + Modulus
    else s
  }

  predicate IsDigit(c: char)
  {
    '0' <= c <= '9'
  }

  predicate AllDigits(s: string)
  {
    forall k :: 0 <= k < |s| ==> IsDigit(s[k])
  }

  function DigitValue(c: char): (d: nat)
    requires IsDigit(c)
    ensures d < 10
  {
    (c as int - '0' as int) as nat
  }

  function DigitChar(d: nat): (c: char)
    requires d < 10
    ensures IsDigit(c) && DigitValue(c) == d
  {
    ('0' as int + d) as char
  }

  /** The number a string of decimal digits denotes, most significant digit first. */
  function DigitsValue(ds: string): nat
    requires AllDigits(ds)
  {
    if |ds| == 0 then 0
    else 10 * DigitsValue(ds[..|ds| - 1]) + DigitValue(ds[|ds| - 1])
  }

  /** The shortest decimal digits of `n` (no leading zeros except for 0 itself). */
  function NatToDigits(n: nat): (ds: string)
    ensures |ds| > 0 && AllDigits(ds)
    ensures DigitsValue(ds) == n
    ensures |ds| > 1 ==> ds[0] != '0'
  {
    if n < 10 then [DigitChar(n)]
    else
      var front := NatToDigits(n / 10);
      var ds := front + [DigitChar(n % 10)];
      assert ds[..|ds| - 1] == front;
      ds
  }

  /**
   `Integer.parseInt(s)`: an optional `+` or `-` followed by at least one
   decimal digit, denoting a value in the `int` range; `None` stands for the
   `NumberFormatException` thrown otherwise.
   */
  function ParseInt(s: string): (r: Option<int>)
    ensures r.Some? ==> IsInt32(r.value)
    // success needs digits only, after at most one leading sign, and at least one of them
    ensures r.Some? ==> |s| > 0 && (AllDigits(s) || ((s[0] == '-' || s[0] == '+') && |s| > 1 && AllDigits(s[1..])))
    // unsigned digits: their value when it fits, a failure when it does not
    ensures |s| > 0 && AllDigits(s) && DigitsValue(s) <= MaxInt ==> r == Some(DigitsValue(s) as int)
    ensures AllDigits(s) && DigitsValue(s) > MaxInt ==> r.None?
    // a leading `+` changes nothing; a leading `-` negates, down to MinInt
    ensures |s| > 1 && s[0] == '+' && AllDigits(s[1..]) && DigitsValue(s[1..]) <= MaxInt ==> r == Some(DigitsValue(s[1..]) as int)
    ensures |s| > 1 && s[0] == '+' && AllDigits(s[1..]) && DigitsValue(s[1..]) > MaxInt ==> r.None?
    ensures |s| > 1 && s[0] == '-' && AllDigits(s[1..]) && DigitsValue(s[1..]) <= -MinInt ==> r == Some(-(DigitsValue(s[1..]) as int))
    ensures |s| > 1 && s[0] == '-' && AllDigits(s[1..]) && DigitsValue(s[1..]) > -MinInt ==> r.None?
  {
    if |s| == 0 then None
    else
      var negative := s[0] == '-';
      var digits := if s[0] == '-' || s[0] == '+' then s[1..] else s;
      if |digits| == 0 || !AllDigits(digits) then None
      else
        var magnitude: int := DigitsValue(digits);
        var v := if negative then -magnitude else magnitude;
        if IsInt32(v) then Some(v) else None
  }

  /** `Integer.toString(n)`: a minus sign for negative values, then the digits of the magnitude. */
  function ToDecimal(n: int): (s: string)
    ensures |s| > 0
    ensures '+' !in s && ' ' !in s
    ensures n >= 0 ==> AllDigits(s)
    ensures n < 0 ==> s[0] == '-' && AllDigits(s[1..])
    // a single "0" for zero, and no leading zero otherwise
    ensures n >= 0 && |s| > 1 ==> s[0] != '0'
    ensures n < 0 ==> |s| > 1 && s[1] != '0'
  {
    if n < 0 then "-" + NatToDigits(-n) else NatToDigits(n)
  }

  /** Every `int` printed by `toString` is read back by `parseInt`. */
  lemma ParseToDecimal(n: int)
    requires IsInt32(n)
    ensures ParseInt(ToDecimal(n)) == Some(n)
  {
    var s := ToDecimal(n);
    if n < 0 {
      assert s[1..] == NatToDigits(-n);
    }
  }

  /** What `toString` prints is never the word "error". */
  lemma ToDecimalNotError(n: int)
    ensures ToDecimal(n) != "error"
  {
    var s := ToDecimal(n);
    assert s[0] == '-' || IsDigit(s[0]);
  }
}

=== FILE: java_strings.dfy ===
/**
 The parts of `java.lang.String` that the chat client and the arithmetic
 server rely on: `split` with a single-character separator (with limit 2 and
 with the default limit 0), `trim`, and the joining of fields that `split`
 undoes.
 */
module JavaStrings {
  import opened Sequences

  /**
   `s.split(sep, 2)`: the text before the first separator and the whole rest,
   or `[s]` when `s` holds no separator.
   */
  function SplitFirst(s: string, sep: char): (parts: seq<string>)
    ensures 1 <= |parts| <= 2
    ensures |parts| == 1 <==> sep !in s
    ensures |parts| == 1 ==> parts[0] == s
    ensures |parts| == 2 ==> sep !in parts[0] && s == parts[0] + [sep] + parts[1]
  {
    var i := Find(s, sep);
    if i == |s| then [s] else [s[..i], s[i + 1..]]
  }

  /** The separator-free head and arbitrary tail of a line are recovered by `SplitFirst`. */
  lemma SplitFirstJoined(a: string, sep: char, b: string)
    requires sep !in a
    ensures SplitFirst(a + [sep] + b, sep) == [a, b]
  {
    var s := a + [sep] + b;
    var i := Find(s, sep);
    assert forall k :: 0 <= k < |a| ==> s[k] == a[k];
    assert s[|a|] == sep;
    assert i == |a|;
    assert s[..i] == a;
    assert s[i + 1..] == b;
  }

  /** The fields joined with `sep` between consecutive ones. */
  function Join(fields: seq<string>, sep: char): (s: string)
    ensures |fields| == 1 ==> s == fields[0]
  {
    if |fields| == 0 then ""
    else if |fields| == 1 then fields[0]
    else fields[0] + [sep] + Join(fields[1..], sep)
  }

  /** No field contains the separator. */
  predicate SeparatorFree(fields: seq<string>, sep: char)
  {
    forall k :: 0 <= k < |fields| ==> sep !in fields[k]
  }

  /** Every field between separators, empty ones included. */
  function Fields(s: string, sep: char): (fields: seq<string>)
    ensures |fields| >= 1
    ensures SeparatorFree(fields, sep)
    ensures Join(fields, sep) == s
    decreases |s|
  {
    var i := Find(s, sep);
    if i == |s| then [s]
    else
      var rest := Fields(s[i + 1..], sep);
      JoinCons(s[..i], rest, sep);
      assert s == s[..i] + [sep] + s[i + 1..];
      assert forall k :: 1 <= k < |rest| + 1 ==> ([s[..i]] + rest)[k] == rest[k - 1];
      [s[..i]] + rest
  }

  /** Joining a field in front of at least one more puts one separator between them. */
  lemma JoinCons(head: string, rest: seq<string>, sep: char)
    requires |rest| >= 1
    ensures Join([head] + rest, sep) == head + [sep] + Join(rest, sep)
  {
    assert ([head] + rest)[1..] == rest;
  }

  /** `Fields` is the only separator-free decomposition of a string. */
  lemma {:induction false} FieldsOfJoin(fields: seq<string>, sep: char)
    requires |fields| >= 1
    requires SeparatorFree(fields, sep)
    ensures Fields(Join(fields, sep), sep) == fields
    decreases |fields|
  {
    if |fields| == 1 {
      assert sep !in fields[0];
    } else {
      var tail := fields[1..];
      assert SeparatorFree(tail, sep) by {
        forall k | 0 <= k < |tail| ensures sep !in tail[k] {
          assert tail[k] == fields[k + 1];
        }
      }
      FieldsOfJoin(tail, sep);
      JoinCons(fields[0], tail, sep);
      FieldsCons(fields[0], Join(tail, sep), sep);
      assert fields == [fields[0]] + tail;
    }
  }

  /** A separator-free head, a separator and a tail: the head is the first field. */
  lemma FieldsCons(head: string, tail: string, sep: char)
    requires sep !in head
    ensures Fields(head + [sep] + tail, sep) == [head] + Fields(tail, sep)
  {
    var s := head + [sep] + tail;
    SplitFirstJoined(head, sep, tail);
    var i := Find(s, sep);
    assert i < |s|;
    assert s[..i] == head && s[i + 1..] == tail;
  }

  /** Two lists of separator-free fields make a separator-free list. */
  lemma SeparatorFreeFront(front: seq<string>, more: seq<string>, sep: char)
    requires SeparatorFree(front, sep) && SeparatorFree(more, sep)
    ensures SeparatorFree(front + more, sep)
  {
    forall k | 0 <= k < |front + more| ensures sep !in (front + more)[k] {
      if k >= |front| {
        assert (front + more)[k] == more[k - |front|];
      }
    }
  }

  /** Two separators after a separator-free head: the head, an empty field, then the fields of the rest. */
  lemma FieldsEmptySecond(x: string, rest: string, sep: char)
    requires sep !in x
    ensures Fields(x + [sep] + ([sep] + rest), sep) == [x, ""] + Fields(rest, sep)
  {
    var tail := [sep] + rest;
    FieldsCons("", rest, sep);
    assert "" + [sep] + rest == tail;
    FieldsCons(x, tail, sep);
    assert [x] + ([""] + Fields(rest, sep)) == [x, ""] + Fields(rest, sep);
  }

  /** Splitting `x`, a separator, `y`, a separator and anything yields `x` and `y` first, when `y` is non-empty. */
  lemma SplitLeadingFields(x: string, y: string, rest: string, sep: char)
    requires sep !in x && sep !in y && y != ""
    ensures var parts := Split(x + [sep] + (y + [sep] + rest), sep);
            |parts| >= 2 && parts[0] == x && parts[1] == y
  {
    var more := Fields(rest, sep);
    var tail := [y] + more;
    var fields := [x] + tail;
    JoinCons(y, more, sep);
    JoinCons(x, tail, sep);
    assert Join(fields, sep) == x + [sep] + (y + [sep] + rest);
    assert fields == [x, y] + more;
    SeparatorFreeFront([x, y], more, sep);
    SplitOfJoinKeeps(fields, sep, 1);
  }

  /** After an empty second field, a rest with a non-separator character still yields a non-empty field. */
  lemma FieldsEmptySecondThenMore(x: string, rest: string, sep: char, j: nat)
    requires sep !in x && j < |rest| && rest[j] != sep
    ensures var f := Fields(x + [sep, sep] + rest, sep);
            |f| >= 2 && f[1] == "" && exists k :: 1 <= k < |f| && f[k] != ""
  {
    FieldsEmptySecond(x, rest, sep);
    assert x + [sep] + ([sep] + rest) == x + [sep, sep] + rest;
    NonEmptyField(rest, sep, j);
    var k :| 0 <= k < |Fields(rest, sep)| && Fields(rest, sep)[k] != "";
    var f := Fields(x + [sep, sep] + rest, sep);
    assert f[k + 2] == Fields(rest, sep)[k];
  }

  /** A string holding a character other than the separator has a non-empty field. */
  lemma {:induction false} NonEmptyField(s: string, sep: char, j: nat)
    requires j < |s| && s[j] != sep
    ensures exists k :: 0 <= k < |Fields(s, sep)| && Fields(s, sep)[k] != ""
    decreases |s|
  {
    var i := Find(s, sep);
    if i < |s| {
      var rest := s[i + 1..];
      assert Fields(s, sep) == [s[..i]] + Fields(rest, sep);
      if j < i {
        assert s[..i][j] == s[j];
        assert Fields(s, sep)[0] != "";
      } else {
        assert j > i && rest[j - i - 1] == s[j];
        NonEmptyField(rest, sep, j - i - 1);
        var k :| 0 <= k < |Fields(rest, sep)| && Fields(rest, sep)[k] != "";
        assert Fields(s, sep)[k + 1] == Fields(rest, sep)[k];
      }
    } else {
      assert Fields(s, sep)[0] == s && s != "";
    }
  }

  /** Drops the empty strings at the end of `fields`, as `split` does with limit 0. */
  function DropTrailingEmpty(fields: seq<string>): (r: seq<string>)
    ensures r <= fields
    ensures |r| > 0 ==> r[|r| - 1] != ""
    ensures forall k :: |r| <= k < |fields| ==> fields[k] == ""
  {
    if |fields| == 0 then []
    else if fields[|fields| - 1] == "" then DropTrailingEmpty(fields[..|fields| - 1])
    else fields
  }

  /**
   `s.split(sep)` with Java's default limit 0: a string without the separator
   is returned whole (even the empty string); otherwise all fields are
   produced and the empty ones at the end are removed.
   */
  function Split(s: string, sep: char): (parts: seq<string>)
    ensures SeparatorFree(parts, sep)
    ensures sep !in s ==> parts == [s]
    ensures sep in s ==> |parts| == 0 || parts[|parts| - 1] != ""
  {
    if sep !in s then [s] else DropTrailingEmpty(Fields(s, sep))
  }

  /** Names without separators and without an empty last one survive a join-then-split. */
  lemma SplitOfJoin(fields: seq<string>, sep: char)
    requires |fields| >= 1
    requires SeparatorFree(fields, sep)
    requires |fields| == 1 || fields[|fields| - 1] != ""
    ensures Split(Join(fields, sep), sep) == fields
  {
    if |fields| == 1 {
      assert sep !in fields[0];
    } else {
      var s := Join(fields, sep);
      assert s == fields[0] + [sep] + Join(fields[1..], sep);
      assert s[|fields[0]|] == sep;
      FieldsOfJoin(fields, sep);
    }
  }

  /** Two or more joined fields contain the separator. */
  lemma JoinHasSeparator(fields: seq<string>, sep: char)
    requires |fields| >= 2
    ensures sep in Join(fields, sep)
  {
    assert Join(fields, sep)[|fields[0]|] == sep;
  }

  /**
   Splitting joined separator-free fields yields a prefix of them that keeps
   at least every field up to a non-empty one.
   */
  lemma SplitOfJoinKeeps(fields: seq<string>, sep: char, k: nat)
    requires |fields| >= 2
    requires SeparatorFree(fields, sep)
    requires k < |fields| && fields[k] != ""
    ensures Split(Join(fields, sep), sep) <= fields
    ensures k < |Split(Join(fields, sep), sep)|
  {
    JoinHasSeparator(fields, sep);
    FieldsOfJoin(fields, sep);
  }

  /** Splitting joined fields that are all empty yields nothing at all. */
  lemma SplitOfEmptyFields(fields: seq<string>, sep: char)
    requires |fields| >= 2
    requires forall k :: 0 <= k < |fields| ==> fields[k] == ""
    ensures Split(Join(fields, sep), sep) == []
  {
    JoinHasSeparator(fields, sep);
    FieldsOfJoin(fields, sep);
  }

  /** The characters `String.trim` removes: every code point up to U+0020. */
  predicate Blank(c: char)
  {
    c <= ' '
  }

  predicate AllBlank(s: string)
  {
    forall k :: 0 <= k < |s| ==> Blank(s[k])
  }

  /** `s` without its leading blanks. */
  function TrimStart(s: string): (t: string)
    ensures |t| <= |s| && t == s[|s| - |t|..]
    ensures AllBlank(s[..|s| - |t|])
    ensures |t| > 0 ==> !Blank(t[0])
  {
    if |s| > 0 && Blank(s[0]) then TrimStart(s[1..]) else s
  }

  /** `s` without its trailing blanks. */
  function TrimEnd(s: string): (t: string)
    ensures |t| <= |s| && t == s[..|t|]
    ensures AllBlank(s[|t|..])
    ensures |t| > 0 ==> !Blank(t[|t| - 1])
  {
    if |s| > 0 && Blank(s[|s| - 1]) then TrimEnd(s[..|s| - 1]) else s
  }

  /** `s.trim()`: `s` without leading and trailing characters up to U+0020. */
  function Trim(s: string): (t: string)
    ensures |t| > 0 ==> !Blank(t[0]) && !Blank(t[|t| - 1])
  {
    TrimEnd(TrimStart(s))
  }

  /** Every string is its trimmed core padded with blanks on both sides. */
  lemma TrimDecomposes(s: string) returns (front: string, back: string)
    ensures s == front + Trim(s) + back
    ensures AllBlank(front) && AllBlank(back)
  {
    front := LeadingBlanks(s);
    back := TrailingBlanks(TrimStart(s));
  }

  /** The blanks `TrimStart` removes, in front of what it keeps. */
  lemma LeadingBlanks(s: string) returns (front: string)
    ensures s == front + TrimStart(s) && AllBlank(front)
  {
    var m := |s| - |TrimStart(s)|;
    front := s[..m];
    assert s == front + s[m..];
  }

  /** The blanks `TrimEnd` removes, behind what it keeps. */
  lemma TrailingBlanks(s: string) returns (back: string)
    ensures s == TrimEnd(s) + back && AllBlank(back)
  {
    var t := TrimEnd(s);
    back := s[|t|..];
    assert s == s[..|t|] + back;
  }

  /** Trimming removes exactly the blank padding around a core with non-blank ends. */
  lemma {:induction false} TrimPadded(front: string, core: string, back: string)
    requires AllBlank(front) && AllBlank(back)
    requires |core| > 0 ==> !Blank(core[0]) && !Blank(core[|core| - 1])
    ensures Trim(front + core + back) == core
  {
    var s := front + core + back;
    if |core| == 0 {
      assert s == (front + back) + "";
      TrimStartPadded(front + back, "");
    } else {
      assert s == front + (core + back);
      TrimStartPadded(front, core + back);
      TrimEndPadded(core, back);
    }
  }

  lemma {:induction false} TrimStartPadded(front: string, rest: string)
    requires AllBlank(front)
    requires |rest| > 0 ==> !Blank(rest[0])
    ensures TrimStart(front + rest) == rest
    decreases |front|
  {
    if |front| > 0 {
      assert (front + rest)[1..] == front[1..] + rest;
      TrimStartPadded(front[1..], rest);
    } else {
      assert front + rest == rest;
    }
  }

  lemma {:induction false} TrimEndPadded(rest: string, back: string)
    requires AllBlank(back)
    requires |rest| > 0 ==> !Blank(rest[|rest| - 1])
    ensures TrimEnd(rest + back) == rest
    decreases |back|
  {
    if |back| > 0 {
      assert (rest + back)[..|rest + back| - 1] == rest + back[..|back| - 1];
      TrimEndPadded(rest, back[..|back| - 1]);
    } else {
      assert rest + back == rest;
    }
  }

  /** Trimming twice is trimming once. */
  lemma TrimIdempotent(s: string)
    ensures Trim(Trim(s)) == Trim(s)
  {
    TrimPadded("", Trim(s), "");
    assert "" + Trim(s) + "" == Trim(s);
  }
}

=== FILE: options.dfy ===
/** The optional-value datatype used for Java's nullable references. */
module Options {

  /** `None` stands for Java's `null`, `Some(v)` for a present value. */
  datatype Option<+T> = None | Some(value: T) {

    /** Returns the value, or `default` when there is none. */
    function GetOr(default: T): (r: T)
      ensures Some? ==> r == value
      ensures None? ==> r == default
    {
      match this
      case Some(v) => v
      case None => default
    }
  }
}

=== FILE: registry.dfy ===
/**
 The client's listener list: registration that never duplicates, removal of
 one listener, and the fan-out every `on*` notifier performs by looping over
 the list in order.
 */
module Registry {
  import opened Sequences

  predicate NoDuplicates<T(==)>(s: seq<T>)
  {
    forall i, j :: 0 <= i < j < |s| ==> s[i] != s[j]
  }

  /** `addListener`: append the listener unless it is already registered. */
  function Add<T(==)>(listeners: seq<T>, l: T): (r: seq<T>)
    ensures l in listeners ==> r == listeners
    ensures l !in listeners ==> r == listeners + [l]
  {
    if l in listeners then listeners else listeners + [l]
  }

  /** Registration keeps the list free of duplicates, keeps everyone registered, and adds only `l`. */
  lemma AddKeepsRegistry<T>(listeners: seq<T>, l: T)
    requires NoDuplicates(listeners)
    ensures NoDuplicates(Add(listeners, l))
    ensures l in Add(listeners, l)
    ensures forall x :: x in Add(listeners, l) <==> x in listeners || x == l
    ensures listeners <= Add(listeners, l)
  {
  }

  /** Registering twice is registering once. */
  lemma AddIdempotent<T>(listeners: seq<T>, l: T)
    ensures Add(Add(listeners, l), l) == Add(listeners, l)
  {
  }

  /** `removeListener` (`List.remove`): drop the first occurrence of `l`, if any. */
  function Remove<T(==)>(listeners: seq<T>, l: T): (r: seq<T>)
    ensures l !in listeners ==> r == listeners
    ensures l in listeners ==> r == listeners[..Find(listeners, l)] + listeners[Find(listeners, l) + 1..]
  {
    if |listeners| == 0 then []
    else if listeners[0] == l then listeners[1..]
    else
      RemoveBehindHead(listeners, l);
      [listeners[0]] + Remove(listeners[1..], l)
  }

  /** Cutting `l` out of the tail and putting the head back cuts it out of the whole list. */
  lemma RemoveBehindHead<T>(listeners: seq<T>, l: T)
    requires |listeners| > 0 && listeners[0] != l
    ensures var tail := listeners[1..];
            l in tail ==>
              [listeners[0]] + (tail[..Find(tail, l)] + tail[Find(tail, l) + 1..])
              == listeners[..Find(listeners, l)] + listeners[Find(listeners, l) + 1..]
  {
    var tail := listeners[1..];
    if l in tail {
      var j := Find(tail, l);
      assert Find(listeners, l) == j + 1;
      CutBehindHead(listeners, j);
    }
  }

  /** Cutting index `j` out of the tail and putting the head back cuts index `j + 1` out of the list. */
  lemma CutBehindHead<T>(s: seq<T>, j: nat)
    requires j + 1 < |s|
    ensures [s[0]] + (s[1..][..j] + s[1..][j + 1..]) == s[..j + 1] + s[j + 2..]
  {
    var front, back := s[1..][..j], s[1..][j + 1..];
    assert s[..j + 1] == [s[0]] + front;
    assert s[j + 2..] == back;
  }

  /** The tail of a duplicate-free list is duplicate-free and does not hold the head. */
  lemma TailNoDuplicates<T>(s: seq<T>)
    requires |s| > 0 && NoDuplicates(s)
    ensures NoDuplicates(s[1..])
    ensures s[0] !in s[1..]
  {
    var tail := s[1..];
    forall i, j | 0 <= i < j < |tail| ensures tail[i] != tail[j] {
      assert tail[i] == s[i + 1] && tail[j] == s[j + 1];
    }
    forall k | 0 <= k < |tail| ensures tail[k] != s[0] {
      assert tail[k] == s[k + 1];
    }
  }

  /** Removal takes out `l` and nothing else. */
  lemma {:induction false} RemoveMembers<T>(listeners: seq<T>, l: T, x: T)
    requires NoDuplicates(listeners)
    ensures x in Remove(listeners, l) <==> x in listeners && x != l
    decreases |listeners|
  {
    if |listeners| > 0 {
      var head, tail := listeners[0], listeners[1..];
      TailNoDuplicates(listeners);
      assert x in listeners <==> x == head || x in tail;
      if head != l {
        RemoveMembers(tail, l, x);
        assert Remove(listeners, l) == [head] + Remove(tail, l);
      }
    }
  }

  /** From a duplicate-free list, removal takes out exactly `l` and keeps the list duplicate-free. */
  lemma {:induction false} RemoveKeepsOthers<T>(listeners: seq<T>, l: T)
    requires NoDuplicates(listeners)
    ensures NoDuplicates(Remove(listeners, l))
    ensures forall x :: x in Remove(listeners, l) <==> x in listeners && x != l
    decreases |listeners|
  {
    forall x ensures x in Remove(listeners, l) <==> x in listeners && x != l {
      RemoveMembers(listeners, l, x);
    }
    if |listeners| > 0 && listeners[0] != l {
      var head, tail := listeners[0], listeners[1..];
      TailNoDuplicates(listeners);
      RemoveKeepsOthers(tail, l);
      var rest := Remove(tail, l);
      RemoveMembers(tail, l, head);
      ConsNoDuplicates(head, rest);
    }
  }

  lemma ConsNoDuplicates<T>(head: T, rest: seq<T>)
    requires NoDuplicates(rest) && head !in rest
    ensures NoDuplicates([head] + rest)
  {
    var r := [head] + rest;
    forall i, j | 0 <= i < j < |r| ensures r[i] != r[j] {
      assert r[j] == rest[j - 1];
      if i > 0 {
        assert r[i] == rest[i - 1];
      }
    }
  }

  /** Registering a new listener and removing it again restores the list. */
  lemma RemoveAdd<T>(listeners: seq<T>, l: T)
    requires l !in listeners
    ensures Remove(Add(listeners, l), l) == listeners
  {
    var added := listeners + [l];
    assert Find(added, l) == |listeners|;
    assert added[..|listeners|] == listeners;
  }

  /** The calls one notifier makes: each listener, in list order, receives the event. */
  function FanOut<T, E>(listeners: seq<T>, e: E): (calls: seq<(T, E)>)
    ensures |calls| == |listeners|
    ensures forall k :: 0 <= k < |listeners| ==> calls[k] == (listeners[k], e)
  {
    if |listeners| == 0 then [] else [(listeners[0], e)] + FanOut(listeners[1..], e)
  }

  /** Number of times `x` occurs in `s`. */
  function Count<T(==)>(s: seq<T>, x: T): nat
  {
    if |s| == 0 then 0
    else (if s[0] == x then 1 else 0) + Count(s[1..], x)
  }

  /**
   A notifier over a duplicate-free list calls every registered listener
   exactly once with the event, and a listener that is not registered never.
   */
  lemma {:induction false} FanOutExactlyOnce<T, E>(listeners: seq<T>, e: E, l: T)
    requires NoDuplicates(listeners)
    ensures Count(FanOut(listeners, e), (l, e)) == if l in listeners then 1 else 0
    decreases |listeners|
  {
    if |listeners| > 0 {
      var tail := listeners[1..];
      TailNoDuplicates(listeners);
      FanOutExactlyOnce(tail, e, l);
      assert FanOut(listeners, e)[1..] == FanOut(tail, e);
      assert l in listeners <==> l == listeners[0] || l in tail;
    }
  }
}

=== FILE: sequences.dfy ===
/** Searching a sequence, shared by `String.split` and `List.remove`. */
module Sequences {

  /** Index of the first occurrence of `x` in `s`, or `|s|` when it does not occur. */
  function Find<T(==)>(s: seq<T>, x: T): (i: nat)
    ensures i <= |s|
    ensures i < |s| ==> s[i] == x
    ensures forall k :: 0 <= k < i ==> s[k] != x
    ensures i == |s| <==> x !in s
  {
    if |s| == 0 then 0
    else if s[0] == x then 0
    else 1 + Find(s[1..], x)
  }
}
